=== FILE: README.md ===
# Chiller-plant preprocessing, windowing and query forms in Dafny

This project models the data-handling core of the chiller-plant sensor dashboard.
It covers three pieces:

- The column preprocessing of the forecast path. This is null filling with a
  rolling mean, threshold nulling with forward fill, smoothing, clamping of
  negatives, cooling-tower shutdown flags, and min-max scaling with its inverse.
- The construction of the sliding-window feature and target arrays for the
  Keras sequence model. This covers `prepare_features`, `equalize_length`,
  `Reshape` and `prepare_keras_data`, plus the evaluation metric
  `mean_absolute_percent_error_ignore_zero`.
- The query-parameter forms of the API (`ListField`, `FlexibleDateTimeField`,
  and the `validate_*` methods of the logs, abnormalities and forecast forms).
  Each form becomes a pure parse function. It returns the validated query, or
  every field error in field order.

The data model:

- A column is a `seq<Option<real>>`, and NaN is `None`.
- A data frame (`Frames.Frame`) holds an ordered list of distinct labels and a
  map from label to column, all of the same length.
- A numpy array (`Arrays.Array`) is a shape and its elements in row-major order.
- Python exceptions become `Err` values of `Wrappers.PyError` (KeyError,
  IndexError, ValueError, ZeroDivisionError). The forms report `Forms.FieldError`
  lists instead.
- pandas operations that write into the caller's frame are modelled as functions
  that return the new frame.

Modules, one per concern:

- `Series` (rolling mean, fillna, pad) and `Cleaning` (the per-column transforms)
  carry the column semantics.
- `Frames` handles the `cols or df.columns` selection and the KeyError on an
  unknown label.
- `Process` covers `dashboard/process.py`, and `Common` covers
  `notebooks/common.py`.
- `Arrays` and `Windowing` handle the numpy shapes.
- `Metrics` holds the MAPE metric.
- `Text` holds Python's `strip`/`split`/`join`.
- `Forms` holds the forms.

Behaviour worth noting:

- **Rolling window.** `replace_nulls` uses a trailing window (pandas' default).
- **Window count.** `prepare_features` builds `rows - N - 1` windows
  (`range(shape[0] - N - 1)`). The last row is therefore never a target.
- **In-place mutation.** The preprocessing functions mutate the frame they are
  given.
- **Normalisation range.** The default range is `(0.1, 1)` in
  `dashboard/process.py` and `(0, 1)` in `notebooks/common.py`. Both are
  arguments of the scaler fit, which is a parameter here.

`prepare_features` and `Reshape` appear twice in the source, with identical
bodies (dashboard/process.py:56-86 and notebooks/common.py:79-127). They are
modelled once and cited at the dashboard copy.

## Model

| member | source | states |
|---|---|---|
| Process.ReplaceNulls | dashboard/process.py:11-16 | An empty selection means every column; a selected label not in the frame is a KeyError; unselected columns are unchanged; each selected column becomes its null fill with a 5-row trailing window, that is, a NaN takes the mean of the present values among itself and the 4 rows above, and what is still NaN is padded from above; so every present value is kept and a cell ends up filled exactly when some value at or above it is present |
| Cleaning.FillNulls | dashboard/process.py:13-15 | The fill keeps the column's length and every present value; the companion lemmas below pin down the rest: a NaN with a present value in its window takes their mean, otherwise the filled value above it |
| Cleaning.FillNullsFromWindow | dashboard/process.py:13-14 | A NaN with a present value among itself and the 4 rows above becomes the mean of exactly those present values |
| Cleaning.FillNullsCarries | dashboard/process.py:15 | A NaN whose window holds no value takes the filled value of the row above (pad), and stays NaN in the first row |
| Cleaning.FillNullsDefined | dashboard/process.py:13-15 | After fill and pad a cell is present iff some original cell at or above it is present |
| Cleaning.FillNullsWithin | dashboard/process.py:13-15 | Filling never leaves the range of the values present in the column |
| Series.ForwardFillNearest | dashboard/process.py:15 | Forward fill gives each cell the nearest present value at or above it, or NaN if there is none |
| Series.ForwardFillIdempotent | dashboard/process.py:15 | Padding a padded column changes nothing |
| Process.ReplaceWithNear | dashboard/process.py:20-26 | `_bin` columns and unselected columns are unchanged; an unknown non-`_bin` selected label is a KeyError; values at or above the threshold (0.1 by default) are kept and every value left is NaN or at least the threshold |
| Cleaning.NearFill | dashboard/process.py:24-25 | The column keeps its length and every value at or above the threshold, and every value it holds is at least the threshold |
| Cleaning.NearFillNearest | dashboard/process.py:24-25 | Each cell becomes the nearest value at or above it that reaches the threshold, or NaN if there is none |
| Cleaning.NearFillIdempotent | dashboard/process.py:24-25 | Applying the threshold fill twice is the same as once |
| Process.SmoothData | dashboard/process.py:30-33 | Each selected cell becomes the mean of the present values among itself and the 9 rows above, and NaN when there are none; other columns are unchanged |
| Cleaning.SmoothConstant | dashboard/process.py:32 | Smoothing a column whose present values all equal c yields only c or NaN, and leaves a fully present constant column unchanged |
| Series.RollingMeanWithin | dashboard/process.py:32 | A rolling mean stays within the bounds of the column's present values |
| Series.RollingMeanDefined | dashboard/process.py:32 | A rolling-mean cell is present iff its window holds a present value |
| Process.GetNormalizedDf | dashboard/process.py:37-52 | An empty frame comes back unchanged; otherwise an unknown label is a KeyError, an empty selection is the ValueError `fit_transform` raises on zero features, and the scaler is the one fitted on exactly the selected columns, and the result has the selected labels in order with each column mapped by its fitted `x * scale_ + min_` |
| Common.NormalizeThenInverse | dashboard/process.py:47-51 | Inverting column j of a normalised frame with the attached scaler gives back the original column j |
| Windowing.PrepareFeatures | dashboard/process.py:56-67 | An unknown feature or target label is a KeyError; there are max(0, rows - N - 1) pairs; y has that many elements, the i-th being the target at row i + N; x has shape (k, N, features), or (0,) when there are no windows |
| Windowing.PrepareFeaturesWindow | dashboard/process.py:61-62 | Element (i, j, c) of x is feature c at row i + j |
| Windowing.WindowsOverlap | dashboard/process.py:61-62 | Consecutive windows share N - 1 rows: row j + 1 of window i is row j of window i + 1 |
| Arrays.Reshape | dashboard/process.py:76 | A reshape succeeds iff the element counts agree, otherwise ValueError, and keeps the elements in order |
| Arrays.ReshapeX | dashboard/process.py:73-76 | Fewer than 3 axes is an IndexError; a 3-D (a, b, c) array becomes (a, 1, b*c) |
| Arrays.ReshapeXOrder | dashboard/process.py:76 | Element (i, j, k) moves to (i, 0, j*c + k): the flattening keeps row-major order |
| Arrays.ReshapeY | dashboard/process.py:78-81 | A 0-d array is an IndexError; the result has shape (a, 1, 1) and exists iff the array has a elements |
| Arrays.InvY | dashboard/process.py:83-86 | A 0-d array is an IndexError; the result has shape (a,) and exists iff the array has a elements |
| Arrays.InvYReshapeY | dashboard/process.py:78-86 | `inv_y` undoes `y` on a one-dimensional array |
| Common.RemoveNegatives | notebooks/common.py:37-41 | Unknown selected labels are a KeyError; no column is added or dropped; each selected column is clamped (negatives become 0, every other value and NaN is kept); unselected columns are unchanged |
| Cleaning.ClampNegatives | notebooks/common.py:40 | The column keeps its length and its NaN positions; negatives become 0, values at or above 0 are kept, and no value left is negative |
| Common.RemoveNegativesIdempotent | notebooks/common.py:37-41 | Removing negatives twice is the same as once |
| Cleaning.ShutdownFlag | notebooks/common.py:46-47 | The flag is 1 where the value is below the threshold and 0 elsewhere, NaN included |
| Common.IdentifyCtShutdown | notebooks/common.py:43-48 | The call only adds columns; with no columns given (the `ct...kw` default) it never fails, and with columns given it fails only with a KeyError for a listed label missing from the frame |
| Common.AddShutdownFlags | notebooks/common.py:45-47 | The flag loop keeps the row count, and fails only with a KeyError for a listed label that is not in the frame it was given |
| Common.AddShutdownFlagsGrows | notebooks/common.py:45-47 | A successful flag loop keeps every column the frame had |
| Common.IdentifyCtShutdownDefault | notebooks/common.py:43-48 | With the default columns the call succeeds, adds exactly one `_shutdown` column per `ct...kw` column holding its flag, and changes no column that is not a flag column |
| Common.AddShutdownFlagsKeys | notebooks/common.py:45-47 | Over existing columns the flag loop succeeds and adds exactly the `col + "_shutdown"` labels |
| Common.AddShutdownFlagsMissing | notebooks/common.py:45-47 | If the k-th listed label is absent from the frame and is not the `_shutdown` label of any label listed before it, the loop fails with a KeyError naming one of the first k + 1 listed labels; `["x_shutdown"]` over a frame without that column is covered, `["x", "x_shutdown"]` (the flag written by the first step) is not |
| Common.AddShutdownFlagsKeeps | notebooks/common.py:45-47 | A column the flag loop does not write keeps its values |
| Common.AddShutdownFlagsFlag | notebooks/common.py:45-47 | Provided no listed label itself ends in `_shutdown`, each listed column gets the flag computed from its own values. With `["a", "a_shutdown"]` the source computes the second flag from the flag it has just written, and this lemma does not cover that case |
| Common.ReplaceMissing | notebooks/common.py:50-54 | As `replace_nulls` with a 10-row window: unknown labels are a KeyError; each selected column becomes its null fill (a NaN takes the mean of the present values among itself and the 9 rows above, and what is still NaN is forward-filled); present values are kept, a cell is filled iff some value at or above it is present |
| Windowing.EqualizeLength | notebooks/common.py:73-75 | A 0-d array is an IndexError and batch 0 a ZeroDivisionError; otherwise the first axis shrinks to the largest multiple of the batch, dropping leading rows for "start" and trailing rows otherwise |
| Windowing.EqualizeStartAt | notebooks/common.py:75 | After trimming at the start, element (i, j, k) is element (i + cnt % batch, j, k) of the input |
| Windowing.TrimMultiple | notebooks/common.py:75 | `cnt - cnt % batch` is a multiple of the batch and no larger than cnt |
| Common.InverseScale | notebooks/common.py:93-97 | The feature index defaults to 0; an index outside `min_` or `scale_` (negative indices counting from the end) is an IndexError; NaN stays NaN; scaling each result back by `x * scale_ + min_` gives the input |
| Common.InverseScaleUndoesScale | notebooks/common.py:93-97 | Inverting a column scaled with the same feature's parameters returns it exactly |
| Windowing.PrepareKerasData | notebooks/common.py:100-112 | Unknown labels are a KeyError; success needs a non-zero batch and at least one window; x then has shape (k, 1, lookback*features) and y (k, 1, 1) with k a multiple of the batch |
| Windowing.PrepareKerasDataWindow | notebooks/common.py:100-112 | Element (i, 0, j*F + c) of x is feature c at row i + m + j, where m windows were trimmed from the start |
| Windowing.PrepareKerasDataTarget | notebooks/common.py:100-112 | Element (i, 0, 0) of y is the target at row i + m + lookback |
| Windowing.PrepareKerasDataErrors | notebooks/common.py:100-112 | With known labels: batch 0 is a ZeroDivisionError, too few rows for a window is an IndexError, anything else succeeds |
| Metrics.Mape | notebooks/common.py:133-140 | The loop agrees with the reference definition on every input |
| Metrics.MapeRef | notebooks/common.py:133-140 | The reference definition fails only with IndexError or ZeroDivisionError, and a numeric result is never negative; the lemmas below give when each case happens |
| Metrics.MapeRefErrors | notebooks/common.py:133-140 | IndexError iff a counted position lies past `y_predict`; ZeroDivisionError iff every true value is 0 |
| Metrics.MapeRefValue | notebooks/common.py:136-140 | The result is NaN iff a counted position holds NaN; otherwise it is 100 times the mean of the absolute relative errors and is at least 0 |
| Metrics.MapePerfect | notebooks/common.py:133-140 | A prediction equal to a NaN-free truth with some non-zero value scores 0 |
| Forms.ParseList | dashboard/forms.py:13-15 | No data gives []; otherwise the items are the pieces whose comma-join is the first value stripped of outer commas, each trimmed of whitespace, in order; no item holds a comma or surrounding whitespace |
| Forms.RenderList | dashboard/forms.py:10-11 | No items render as ""; a non-empty list of comma-free items renders to a string whose comma-split is the list again |
| Forms.ListRoundTrip | dashboard/forms.py:10-15 | Parsing the rendering of a non-empty list of comma-free, trimmed items with non-empty first and last items gives the list back |
| Forms.EmptyListRendersEmpty | dashboard/forms.py:10-15 | The empty list renders as "" and "" parses as [""] |
| Text.SplitJoin | dashboard/forms.py:15 | Splitting a join of separator-free pieces gives the pieces back |
| Text.Strip | dashboard/forms.py:15 | The result is a middle slice of the input, and everything cut off on either side is a stripped character. The result neither starts nor ends with one, and it is the input when there is nothing to strip |
| Forms.FirstParse | dashboard/forms.py:29-36 | The result is the parse under the first format that succeeds, and none iff every format fails |
| Forms.ParseDateTime | dashboard/forms.py:26-37 | No data leaves the field unset; data that no format parses is invalid; otherwise the first successful parse |
| Forms.CheckStart | dashboard/forms.py:54-58 | The start is tagged UTC; a missing or unparseable start becomes two days before today's midnight, whatever the end; only an unparseable one is an error |
| Forms.CheckEnd | dashboard/forms.py:60-64 | The end is tagged UTC; a missing or unparseable end becomes today's midnight; only an unparseable one is an error |
| Forms.CheckFreq | dashboard/forms.py:66-70 | Empty becomes "hours"; the value passes iff it is one of years, months, days, hours, minutes |
| Forms.CheckOrder | dashboard/forms.py:72-76 | Missing or 0 becomes 1; a non-integer is an error and defaults to 1; any other value than -1 and 1 is rejected |
| Forms.CheckToken | dashboard/forms.py:78-84 | An empty token stays absent; any other parses under the token format and is tagged UTC, or is an error |
| Forms.CheckFunc | dashboard/forms.py:86-92 | Empty becomes "avg"; the value passes iff it is one of avg, sum, max, min |
| Forms.CheckForecastField | dashboard/forms.py:128-134 | Empty is an error; the value passes iff its lower-case form is "cwshdr"; the value keeps its case |
| Forms.ParseLogsQuery | dashboard/forms.py:40-92 | A rejection lists at least one error and each names one of the six validated fields; an accepted query has an allowed freq and func, order -1 or 1, and UTC dates, and each of its seven fields is the value its own field check (or the list parse) derives from the submitted data |
| Forms.LogsQueryValues | dashboard/forms.py:40-92 | An accepted logs query carries what was submitted: parsed dates tagged UTC and missing ones at their defaults, a non-empty freq or func as sent, the submitted integer order with 0 read as 1, the parsed token tagged UTC or no token for an empty one, and the parsed field list |
| Forms.LogsQueryAccepts | dashboard/forms.py:40-92 | The logs form accepts iff both dates are missing or parse, freq and func are allowed, order is missing or an integer in {-1, 0, 1}, and the token is empty or parses; nothing compares start with end |
| Forms.LogsQueryErrors | dashboard/forms.py:40-92 | A rejection lists at least one error, each naming a form field; an unparseable start is reported even though its default is filled in |
| Forms.LogsErrorsEmpty | dashboard/forms.py:40-92 | The form collects no error exactly when each of its six validated fields passes its own check |
| Forms.LogsQueryWellFormed | dashboard/forms.py:54-92 | An accepted query has allowed freq and func, order -1 or 1, UTC dates and token, clean list items, and the date defaults when start or end is missing |
| Forms.LogsQueryDefaults | dashboard/forms.py:54-92 | With nothing submitted the query is (midnight - 2 days, midnight, "hours", [], 1, no token, "avg") |
| Forms.ParseAbnormalitiesQuery | dashboard/forms.py:95-122 | The form accepts iff both dates are missing or parse and freq (after its default) is allowed; `field` is taken as sent, unchecked; the query has UTC dates, parsed dates are the submitted ones tagged UTC and missing ones take their defaults, and a non-empty freq is kept as sent; a rejection lists at least one error, each on start, end or freq |
| Forms.ParseForecastQuery | dashboard/forms.py:125-134 | The form accepts iff the abnormalities form would and the field is non-empty with lower-case form "cwshdr"; the field is kept as sent, parsed dates are the submitted ones tagged UTC, missing ones take their defaults, and a non-empty freq is kept as sent; a rejection lists at least one error, each on start, end, freq or field |
| Forms.ForecastRefinesAbnormalities | dashboard/forms.py:95-134 | The forecast form accepts exactly what the abnormalities form accepts with a supported field, and then gives the same query |
| Forms.ForecastFieldKeepsCase | dashboard/forms.py:125-134 | For any form data whose dates and freq pass, the forecast form accepts iff the field's ASCII lower-case form is "cwshdr", and then keeps the field exactly as sent (so "CwShDr" stays "CwShDr") |
| Forms.ForecastFieldEmpty | dashboard/forms.py:128-130 | An empty forecast field is reported as an error of that field |

## Left out

- Floating point: values are reals, NaN is `None`, and there is no rounding, infinity or overflow. `inverse_scale` therefore requires a non-zero `scale_` at the chosen index, where numpy would divide by zero and give infinities.
- Common.InverseScale: requires a non-zero `scale_` entry instead of modelling IEEE division by zero (see above).
- The scikit-learn `MinMaxScaler` fit: it is a function parameter of `Process.GetNormalizedDf`. Its feature range and fitting arithmetic are not modelled.
- `get_normalized_df` in notebooks/common.py:56-67 is not modelled separately. It fits on the whole frame, has no empty guard, and only uses the labels for renaming.
- Partial mutation before an error: the source mutates the frame column by column, so a KeyError can come after earlier columns (or a `_shutdown` column) were written. The model returns only the error.
- `strptime`, `int()` and `utcnow()` are parameters: `Forms.Strptime`, `Forms.ToInt` and one `now` shared by both date defaults. The source calls `utcnow()` separately for start and end.
- Timestamps are (day, microsecond of day, UTC tag). Calendar arithmetic, `timedelta` overflow and `strftime` rendering (`FlexibleDateTimeField._value`) are not modelled, and neither are the `_data` copies of the raw strings.
- `str.lower()` is modelled for ASCII letters only. For the comparison with "cwshdr" this decides the same, because no other character lowercases to one of its letters.
- Error message texts are replaced by the `Forms.Problem` kinds.
- Absent `StringField` data is modelled as "", which is what the validators' falsiness tests see in either wtforms version.
- Negative `lookback` or `batch_size`, and `where` values other than strings, are excluded by the types (`nat`, `string`).
- `x` and `y` of `prepare_features` are 3-D and 1-D here: every feature value is a scalar.
- `load_df`, the Flask routes, MongoDB access, CSV loading, the ORM models and the front-end scripts are I/O or UI.

=== FILE: arrays.dfy ===
/** numpy arrays as a shape and their elements in row-major (C) order, and the
    `Reshape` helpers that bring feature and target arrays into the shapes the
    Keras sequence model expects. */
module Arrays {
  import opened Wrappers

  /** Number of elements of an array of the given shape. */
  function Size(shape: seq<nat>): nat
  {
    if |shape| == 0 then 1 else shape[0] * Size(shape[1..])
  }

  datatype Array<T> = Array(shape: seq<nat>, data: seq<T>)
  {
    ghost predicate Valid()
    {
      |data| == Size(shape)
    }
  }

  lemma Size3(a: nat, b: nat, c: nat)
    ensures Size([a, b, c]) == a * (b * c)
  {
    assert Size([c]) == c by { assert [c][1..] == []; }
    assert Size([b, c]) == b * c by { assert [b, c][1..] == [c]; }
    assert [a, b, c][1..] == [b, c];
  }

  lemma MulMono(x: nat, y: nat, c: nat)
    requires x <= y
    ensures x * c <= y * c
  {
    var d := y - x;
    assert y * c == x * c + d * c;
  }

  /** Row `p` of `a` rows of width `c`, column `k`: a flat position in range. */
  lemma RowMajorInRange(p: nat, k: nat, a: nat, c: nat)
    requires p < a && k < c
    ensures p * c + k < a * c
  {
    assert (p + 1) * c == p * c + c;
    MulMono(p + 1, a, c);
  }

  /** The flat position of element (i, j, k) of an (a, b, c) array is in range. */
  lemma Index3InRange(a: nat, b: nat, c: nat, i: nat, j: nat, k: nat)
    requires i < a && j < b && k < c
    ensures (i * b + j) * c + k < a * (b * c)
  {
    RowMajorInRange(i, j, a, b);
    RowMajorInRange(i * b + j, k, a * b, c);
    assert (a * b) * c == a * (b * c);
  }

  /** Element (i, j, k) of a three-dimensional array. */
  function At3<T>(a: Array<T>, i: nat, j: nat, k: nat): T
    requires a.Valid() && |a.shape| == 3
    requires i < a.shape[0] && j < a.shape[1] && k < a.shape[2]
  {
    At3InRange(a.shape, |a.data|, i, j, k);
    a.data[(i * a.shape[1] + j) * a.shape[2] + k]
  }

  lemma At3InRange(shape: seq<nat>, len: nat, i: nat, j: nat, k: nat)
    requires |shape| == 3 && len == Size(shape)
    requires i < shape[0] && j < shape[1] && k < shape[2]
    ensures (i * shape[1] + j) * shape[2] + k < len
  {
    var s0, s1, s2 := shape[0], shape[1], shape[2];
    assert shape == [s0, s1, s2];
    Size3(s0, s1, s2);
    Index3InRange(s0, s1, s2, i, j, k);
  }

  /** `a.reshape(shape)`: the same elements in the same order under a new
      shape; numpy raises ValueError when the sizes differ. */
  function Reshape<T>(a: Array<T>, shape: seq<nat>): (r: Result<Array<T>, PyError>)
    requires a.Valid()
    ensures r.Ok? <==> Size(shape) == |a.data|
    ensures r.Err? ==> r.error == ValueError
    ensures r.Ok? ==> r.value.Valid() && r.value.shape == shape && r.value.data == a.data
  {
    if Size(shape) == |a.data| then Ok(Array(shape, a.data)) else Err(ValueError)
  }

  /** `Reshape.x`: (a, b, c) becomes (a, 1, b * c); an array with fewer than
      three axes has no `shape[2]` (IndexError). */
  function ReshapeX<T>(a: Array<T>): (r: Result<Array<T>, PyError>)
    requires a.Valid()
    ensures |a.shape| < 3 ==> r == Err(IndexError)
    ensures |a.shape| == 3 ==> r.Ok? && r.value.Valid() && r.value.shape == [a.shape[0], 1, a.shape[1] * a.shape[2]]
  {
    if |a.shape| < 3 then Err(IndexError)
    else
      var s0, s1, s2 := a.shape[0], a.shape[1], a.shape[2];
      if |a.shape| == 3 then
        assert a.shape == [s0, s1, s2];
        Size3(s0, s1, s2);
        Size3(s0, 1, s1 * s2);
        assert 1 * (s1 * s2) == s1 * s2;
        Reshape(a, [s0, 1, s1 * s2])
      else
        Reshape(a, [s0, 1, s1 * s2])
  }

  /** `Reshape.y`: (a, ...) becomes (a, 1, 1). */
  function ReshapeY<T>(a: Array<T>): (r: Result<Array<T>, PyError>)
    requires a.Valid()
    ensures |a.shape| == 0 ==> r == Err(IndexError)
    ensures |a.shape| > 0 ==> (r.Ok? <==> Size(a.shape) == a.shape[0])
    ensures r.Ok? ==> r.value.Valid() && r.value.shape == [a.shape[0], 1, 1]
  {
    if |a.shape| == 0 then Err(IndexError)
    else
      Size3(a.shape[0], 1, 1);
      Reshape(a, [a.shape[0], 1, 1])
  }

  /** `Reshape.inv_y`: (a, ...) becomes (a,). */
  function InvY<T>(a: Array<T>): (r: Result<Array<T>, PyError>)
    requires a.Valid()
    ensures |a.shape| == 0 ==> r == Err(IndexError)
    ensures |a.shape| > 0 ==> (r.Ok? <==> Size(a.shape) == a.shape[0])
    ensures r.Ok? ==> r.value.Valid() && r.value.shape == [a.shape[0]]
  {
    if |a.shape| == 0 then Err(IndexError)
    else
      assert Size([a.shape[0]]) == a.shape[0] by { assert [a.shape[0]][1..] == []; }
      Reshape(a, [a.shape[0]])
  }

  lemma Regroup(i: nat, j: nat, k: nat, b: nat, c: nat)
    ensures (i * 1 + 0) * (b * c) + (j * c + k) == (i * b + j) * c + k
  {
    calc {
      (i * b + j) * c + k;
      (i * b) * c + j * c + k;
      i * (b * c) + j * c + k;
    }
  }

  /** `Reshape.x` keeps row-major order: element (i, j, k) of an (a, b, c)
      array is element (i, 0, j * c + k) of the result. */
  lemma ReshapeXOrder<T>(a: Array<T>, i: nat, j: nat, k: nat)
    requires a.Valid() && |a.shape| == 3
    requires i < a.shape[0] && j < a.shape[1] && k < a.shape[2]
    ensures ReshapeX(a).Ok?
    ensures j * a.shape[2] + k < a.shape[1] * a.shape[2]
    ensures At3(ReshapeX(a).value, i, 0, j * a.shape[2] + k) == At3(a, i, j, k)
  {
    var b, c := a.shape[1], a.shape[2];
    var r := ReshapeX(a).value;
    Index3InRange(1, b, c, 0, j, k);
    assert (0 * b + j) * c + k == j * c + k;
    assert 1 * (b * c) == b * c;
    Regroup(i, j, k, b, c);
    assert r.data == a.data;
  }

  /** `Reshape.inv_y` undoes `Reshape.y` on a one-dimensional array. */
  lemma InvYReshapeY<T>(v: Array<T>)
    requires v.Valid() && |v.shape| == 1
    ensures ReshapeY(v).Ok? && ReshapeY(v).value.shape == [v.shape[0], 1, 1]
    ensures InvY(ReshapeY(v).value) == Ok(v)
  {
    var n := v.shape[0];
    assert v.shape == [n];
    assert Size([n]) == n by { assert [n][1..] == []; }
    Size3(n, 1, 1);
  }
}

=== FILE: cleaning.dfy ===
/** The per-column cleaning transforms of the preprocessing pipeline: null
    filling from a trailing rolling mean, threshold nulling followed by forward
    fill, smoothing, clamping of negatives and the 0/1 shutdown flag. */
module Cleaning {
  import opened Wrappers
  import opened Series

  /** Null filling of `replace_nulls` (window 5) and `replace_missing` (window 10):
      NaN cells take the trailing rolling mean, then what is still NaN is padded. */
  function FillNulls(s: Column, w: nat): (r: Column)
    requires w > 0
    ensures |r| == |s|
    ensures forall i :: 0 <= i < |s| && s[i].Some? ==> r[i] == s[i]
  {
    ForwardFill(FillNa(s, RollingMean(s, w)))
  }

  /** A NaN with values in the rows just above it, inside the window, becomes
      the mean of those values. */
  lemma FillNullsFromWindow(s: Column, w: nat, i: nat)
    requires w > 0 && i < |s| && s[i].None?
    requires exists j :: WindowStart(i, w) <= j < i && s[j].Some?
    ensures var vs := Present(s[WindowStart(i, w)..i]);
            |vs| > 0 && FillNulls(s, w)[i] == Some(Mean(vs))
  {
    var lo := WindowStart(i, w);
    var before := s[lo..i];
    var win := s[lo..i + 1];
    var j :| lo <= j < i && s[j].Some?;
    assert before[j - lo] == s[j];
    PresentNonEmpty(before);
    assert win[..|win| - 1] == before;
    assert win[|win| - 1] == s[i];
    assert Present(win) == Present(before);
    var filled := FillNa(s, RollingMean(s, w));
    assert filled[i] == WindowMean(s, w, i);
    assert filled[i] == Some(Mean(Present(before)));
  }

  /** A NaN whose window holds no value takes the filled value of the row above;
      in the first row it stays NaN. */
  lemma FillNullsCarries(s: Column, w: nat, i: nat)
    requires w > 0 && i < |s| && s[i].None?
    requires forall j :: WindowStart(i, w) <= j < i ==> s[j].None?
    ensures i == 0 ==> FillNulls(s, w)[i].None?
    ensures i > 0 ==> FillNulls(s, w)[i] == FillNulls(s, w)[i - 1]
  {
    var m := RollingMean(s, w);
    RollingMeanDefined(s, w, i);
    assert m[i].None?;
    var filled := FillNa(s, m);
    assert filled[i].None?;
    assert FillNulls(s, w) == ForwardFill(filled);
  }

  /** After filling, a row holds a value exactly when some row at or above it
      held one: leading NaNs, and an all-NaN column, stay NaN. */
  lemma FillNullsDefined(s: Column, w: nat, i: nat)
    requires w > 0 && i < |s|
    ensures FillNulls(s, w)[i].Some? <==> exists j :: 0 <= j <= i && s[j].Some?
  {
    var filled := FillNa(s, RollingMean(s, w));
    ForwardFillDefined(filled, i);
    if exists j :: 0 <= j <= i && filled[j].Some? {
      var j :| 0 <= j <= i && filled[j].Some?;
      if s[j].None? {
        RollingMeanDefined(s, w, j);
      }
    }
    if exists j :: 0 <= j <= i && s[j].Some? {
      var j :| 0 <= j <= i && s[j].Some?;
      assert filled[j].Some?;
    }
  }

  /** Filling never leaves the range of the values present: a gap between two
      values is filled with something between the column's extremes. */
  lemma FillNullsWithin(s: Column, w: nat, lo: real, hi: real)
    requires w > 0
    requires forall i :: 0 <= i < |s| && s[i].Some? ==> lo <= s[i].value <= hi
    ensures forall i :: 0 <= i < |s| && FillNulls(s, w)[i].Some? ==> lo <= FillNulls(s, w)[i].value <= hi
  {
    var filled := FillNa(s, RollingMean(s, w));
    RollingMeanWithin(s, w, lo, hi);
    forall i | 0 <= i < |s| && FillNulls(s, w)[i].Some?
      ensures lo <= FillNulls(s, w)[i].value <= hi
    {
      ForwardFillNearest(filled, i);
    }
  }

  predicate AtLeast(c: Cell, thresh: real)
  {
    c.Some? && c.value >= thresh
  }

  /** `df.loc[df[c] < thresh, c] = np.nan`: values below the threshold become NaN. */
  function MaskBelow(s: Column, thresh: real): (r: Column)
    ensures |r| == |s|
    ensures forall i :: 0 <= i < |s| ==> (r[i].Some? <==> AtLeast(s[i], thresh))
    ensures forall i :: 0 <= i < |s| && r[i].Some? ==> r[i] == s[i]
  {
    seq(|s|, i requires 0 <= i < |s| => if AtLeast(s[i], thresh) then s[i] else None)
  }

  /** One column of `replace_with_near`: values below `thresh` (and NaNs) take
      the nearest value above them that is at least `thresh`. */
  function NearFill(s: Column, thresh: real): (r: Column)
    ensures |r| == |s|
    ensures forall i :: 0 <= i < |s| && AtLeast(s[i], thresh) ==> r[i] == s[i]
    ensures forall i :: 0 <= i < |s| && r[i].Some? ==> r[i].value >= thresh
  {
    var m := MaskBelow(s, thresh);
    var r := ForwardFill(m);
    assert forall i :: 0 <= i < |s| && r[i].Some? ==> r[i].value >= thresh by {
      forall i | 0 <= i < |s| && r[i].Some? ensures r[i].value >= thresh {
        ForwardFillNearest(m, i);
      }
    }
    r
  }

  /** Reference meaning of `NearFill`: the value of the nearest row at or above
      `i` whose value is at least `thresh`, or NaN when there is none. */
  ghost predicate NearestAtLeast(s: Column, thresh: real, i: nat, r: Cell)
    requires i < |s|
  {
    if exists j :: 0 <= j <= i && AtLeast(s[j], thresh)
    then exists j :: 0 <= j <= i && AtLeast(s[j], thresh) && r == s[j]
                     && forall k :: j < k <= i ==> !AtLeast(s[k], thresh)
    else r.None?
  }

  lemma NearFillNearest(s: Column, thresh: real, i: nat)
    requires i < |s|
    ensures NearestAtLeast(s, thresh, i, NearFill(s, thresh)[i])
  {
    var m := MaskBelow(s, thresh);
    ForwardFillNearest(m, i);
    if exists j :: 0 <= j <= i && AtLeast(s[j], thresh) {
      var j0 :| 0 <= j0 <= i && AtLeast(s[j0], thresh);
      assert m[j0].Some?;
    }
  }

  /** Applying `replace_with_near` twice is the same as applying it once. */
  lemma NearFillIdempotent(s: Column, thresh: real)
    ensures NearFill(NearFill(s, thresh), thresh) == NearFill(s, thresh)
  {
    var r := NearFill(s, thresh);
    assert MaskBelow(r, thresh) == r;
    ForwardFillIdempotent(MaskBelow(s, thresh));
  }

  /** One column of `remove_negatives`: negative values become 0. */
  function ClampNegatives(s: Column): (r: Column)
    ensures |r| == |s|
    ensures forall i :: 0 <= i < |s| ==> (r[i].Some? <==> s[i].Some?)
    ensures forall i :: 0 <= i < |s| && r[i].Some? ==> r[i].value >= 0.0
    ensures forall i :: 0 <= i < |s| && AtLeast(s[i], 0.0) ==> r[i] == s[i]
    ensures forall i :: 0 <= i < |s| && s[i].Some? && s[i].value < 0.0 ==> r[i] == Some(0.0)
  {
    seq(|s|, i requires 0 <= i < |s| => if s[i].Some? && s[i].value < 0.0 then Some(0.0) else s[i])
  }

  lemma ClampNegativesIdempotent(s: Column)
    ensures ClampNegatives(ClampNegatives(s)) == ClampNegatives(s)
  {
  }

  /** The `_shutdown` column of `identify_ct_shutdown`: 1 where the value is
      below `thresh`, 0 elsewhere, NaN included. */
  function ShutdownFlag(s: Column, thresh: real): (r: Column)
    ensures |r| == |s|
    ensures forall i :: 0 <= i < |s| ==> r[i] == Some(1.0) || r[i] == Some(0.0)
    ensures forall i :: 0 <= i < |s| ==> (r[i] == Some(1.0) <==> s[i].Some? && s[i].value < thresh)
  {
    seq(|s|, i requires 0 <= i < |s| => if s[i].Some? && s[i].value < thresh then Some(1.0) else Some(0.0))
  }

  /** `smooth_data` leaves a column whose values are all equal unchanged, and
      maps a column with a single value `c` among NaNs to `c` or NaN. */
  lemma SmoothConstant(s: Column, w: nat, c: real)
    requires w > 0
    requires forall i :: 0 <= i < |s| && s[i].Some? ==> s[i].value == c
    ensures forall i :: 0 <= i < |s| ==> RollingMean(s, w)[i] == None || RollingMean(s, w)[i] == Some(c)
    ensures (forall i :: 0 <= i < |s| ==> s[i].Some?) ==> RollingMean(s, w) == s
  {
    RollingMeanWithin(s, w, c, c);
    if forall i :: 0 <= i < |s| ==> s[i].Some? {
      forall i | 0 <= i < |s| ensures RollingMean(s, w)[i] == s[i] {
        RollingMeanDefined(s, w, i);
      }
    }
  }
}

=== FILE: common.dfy ===
/** The notebook preprocessing helpers (notebooks/common.py): clamping of
    negatives, the cooling-tower shutdown flags, null filling with a 10-row
    rolling mean and the inverse of min-max scaling. */
module Common {
  import opened Wrappers
  import opened Series
  import opened Cleaning
  import opened Frames
  import opened Text
  import opened Scaling
  import opened Process

  /** Window of the rolling mean `replace_missing` fills with. */
  const MissingWindow: nat := 10
  /** Default threshold below which a cooling tower counts as shut down. */
  const ShutdownThreshold: real := 0.1

  /** `remove_negatives`: in the selected columns negative values become 0 and
      everything else, NaN included, is kept. */
  function RemoveNegatives(f: Frame, cols: seq<string>): (r: Result<Frame, PyError>)
    requires f.Valid()
    ensures r.Err? <==> exists n :: n in Selected(f, cols) && n !in f.cols
    ensures r.Ok? ==> r.value.Valid() && r.value.rows == f.rows && r.value.names == f.names
    ensures r.Ok? ==> forall n :: n in f.cols && n !in Selected(f, cols) ==> r.value.cols[n] == f.cols[n]
    ensures r.Ok? ==> forall n, i :: n in Selected(f, cols) && 0 <= i < f.rows ==>
              && (r.value.cols[n][i].Some? <==> f.cols[n][i].Some?)
              && (AtLeast(f.cols[n][i], 0.0) ==> r.value.cols[n][i] == f.cols[n][i])
              && (f.cols[n][i].Some? && f.cols[n][i].value < 0.0 ==> r.value.cols[n][i] == Some(0.0))
    ensures r.Ok? ==> r.value.cols.Keys == f.cols.Keys
    ensures r.Ok? ==> forall n :: n in Selected(f, cols) ==> r.value.cols[n] == ClampNegatives(f.cols[n])
  {
    MapColumns(f, Selected(f, cols), ClampNegatives)
  }

  /** Removing negatives a second time changes nothing. */
  lemma RemoveNegativesIdempotent(f: Frame, cols: seq<string>)
    requires f.Valid() && RemoveNegatives(f, cols).Ok?
    ensures RemoveNegatives(RemoveNegatives(f, cols).value, cols) == RemoveNegatives(f, cols)
  {
    var g := RemoveNegatives(f, cols).value;
    assert Selected(g, cols) == Selected(f, cols);
    var h := RemoveNegatives(g, cols).value;
    forall n | n in g.cols ensures h.cols[n] == g.cols[n] {
      if n in Selected(f, cols) {
        ClampNegativesIdempotent(f.cols[n]);
      }
    }
    assert h.cols == g.cols;
    assert h == g;
  }

  /** `replace_missing`: `replace_nulls` with a 10-row window. */
  function ReplaceMissing(f: Frame, cols: seq<string>): (r: Result<Frame, PyError>)
    requires f.Valid()
    ensures r.Err? <==> exists n :: n in Selected(f, cols) && n !in f.cols
    ensures r.Ok? ==> r.value.Valid() && r.value.rows == f.rows && r.value.names == f.names
    ensures r.Ok? ==> forall n :: n in f.cols && n !in Selected(f, cols) ==> r.value.cols[n] == f.cols[n]
    ensures r.Ok? ==> forall n, i :: n in Selected(f, cols) && 0 <= i < f.rows ==>
              && (f.cols[n][i].Some? ==> r.value.cols[n][i] == f.cols[n][i])
              && (r.value.cols[n][i].Some? <==> exists j :: 0 <= j <= i && f.cols[n][j].Some?)
    ensures r.Ok? ==> forall n :: n in Selected(f, cols) ==> r.value.cols[n] == FillNulls(f.cols[n], MissingWindow)
  {
    var r := MapColumns(f, Selected(f, cols), c => FillNulls(c, MissingWindow));
    if r.Ok? then
      assert forall n, i :: n in Selected(f, cols) && 0 <= i < f.rows ==>
          (r.value.cols[n][i].Some? <==> exists j :: 0 <= j <= i && f.cols[n][j].Some?) by {
        forall n, i | n in Selected(f, cols) && 0 <= i < f.rows
          ensures r.value.cols[n][i].Some? <==> exists j :: 0 <= j <= i && f.cols[n][j].Some?
        {
          FillNullsDefined(f.cols[n], MissingWindow, i);
        }
      }
      r
    else r
  }

  /** Labels `identify_ct_shutdown` picks by default: cooling-tower power columns. */
  predicate IsCtKw(n: string)
  {
    StartsWith(n, "ct") && EndsWith(n, "kw")
  }

  function ShutdownName(n: string): string
  {
    n + "_shutdown"
  }

  /** `[i for i in df.columns if i.startswith("ct") and i.endswith("kw")]`. */
  function CtKwColumns(names: seq<string>): (r: seq<string>)
    ensures forall n :: n in r <==> n in names && IsCtKw(n)
  {
    if |names| == 0 then []
    else (if IsCtKw(names[0]) then [names[0]] else []) + CtKwColumns(names[1..])
  }

  /** The loop of `identify_ct_shutdown`: for each listed column in turn,
      `col + "_shutdown"` is set to its shutdown flag; an unknown column is a
      KeyError. */
  function AddShutdownFlags(f: Frame, cols: seq<string>, thresh: real): (r: Result<Frame, PyError>)
    requires f.Valid()
    ensures r.Ok? ==> r.value.Valid() && r.value.rows == f.rows
    ensures r.Err? ==> r.error.KeyError? && r.error.key in cols && r.error.key !in f.cols
    decreases |cols|
  {
    if |cols| == 0 then Ok(f)
    else if cols[0] !in f.cols then Err(KeyError(cols[0]))
    else
      assert forall m :: m in cols[1..] ==> m in cols;
      AddShutdownFlags(SetColumn(f, ShutdownName(cols[0]), ShutdownFlag(f.cols[cols[0]], thresh)), cols[1..], thresh)
  }

  /** `identify_ct_shutdown`, by default over the `ct...kw` columns: the
      default never fails, and given columns fail only on a label missing
      from the frame. */
  function IdentifyCtShutdown(f: Frame, cols: seq<string>, thresh: real := ShutdownThreshold): (r: Result<Frame, PyError>)
    requires f.Valid()
    ensures r.Ok? ==> r.value.Valid() && r.value.rows == f.rows && f.cols.Keys <= r.value.cols.Keys
    ensures r.Err? ==> |cols| > 0 && r.error.KeyError? && r.error.key in cols && r.error.key !in f.cols
  {
    if |cols| == 0 then
      DefaultColumns(f);
      AddShutdownFlagsKeys(f, CtKwColumns(f.names), thresh);
      AddShutdownFlags(f, CtKwColumns(f.names), thresh)
    else
      AddShutdownFlagsGrows(f, cols, thresh);
      AddShutdownFlags(f, cols, thresh)
  }

  /** The flag loop only adds columns. */
  lemma {:induction false} AddShutdownFlagsGrows(f: Frame, cols: seq<string>, thresh: real)
    requires f.Valid()
    decreases |cols|
    ensures AddShutdownFlags(f, cols, thresh).Ok? ==> f.cols.Keys <= AddShutdownFlags(f, cols, thresh).value.cols.Keys
  {
    if |cols| > 0 && cols[0] in f.cols {
      AddShutdownFlagsGrows(SetColumn(f, ShutdownName(cols[0]), ShutdownFlag(f.cols[cols[0]], thresh)), cols[1..], thresh);
    }
  }

  /** A `..kw` label never ends in `_shutdown`, so it is never a flag column. */
  lemma CtKwNotShutdown(n: string)
    requires EndsWith(n, "kw")
    ensures !EndsWith(n, "_shutdown")
  {
    assert n[|n| - 1] == 'w' by {
      assert n[|n| - 2..][1] == n[|n| - 1];
    }
    if 9 <= |n| {
      assert n[|n| - 9..][8] == n[|n| - 1];
    }
  }

  lemma ShutdownNameEnds(m: string)
    ensures EndsWith(ShutdownName(m), "_shutdown")
  {
    assert ShutdownName(m)[|ShutdownName(m)| - 9..] == "_shutdown";
  }

  lemma ShutdownNameInjective(a: string, b: string)
    ensures ShutdownName(a) == ShutdownName(b) ==> a == b
  {
    if ShutdownName(a) == ShutdownName(b) {
      assert a == ShutdownName(a)[..|a|];
      assert b == ShutdownName(b)[..|b|];
    }
  }

  /** Labels the flag loop writes. */
  function Targets(cols: seq<string>): set<string>
  {
    set m | m in cols :: ShutdownName(m)
  }

  lemma TargetsCons(cols: seq<string>)
    requires |cols| > 0
    ensures Targets(cols) == {ShutdownName(cols[0])} + Targets(cols[1..])
  {
    forall x | x in Targets(cols) ensures x in {ShutdownName(cols[0])} + Targets(cols[1..]) {
      var m :| m in cols && x == ShutdownName(m);
      if m != cols[0] {
        assert cols == [cols[0]] + cols[1..];
        assert m in cols[1..];
      }
    }
  }

  /** Over columns that exist, the flag loop succeeds and adds exactly the
      flag labels. */
  lemma {:induction false} AddShutdownFlagsKeys(f: Frame, cols: seq<string>, thresh: real)
    requires f.Valid()
    requires forall m :: m in cols ==> m in f.cols
    decreases |cols|
    ensures AddShutdownFlags(f, cols, thresh).Ok?
    ensures AddShutdownFlags(f, cols, thresh).value.cols.Keys == f.cols.Keys + Targets(cols)
  {
    if |cols| > 0 {
      var c := cols[0];
      var f1 := SetColumn(f, ShutdownName(c), ShutdownFlag(f.cols[c], thresh));
      FlagStep(f, cols, thresh);
      AddShutdownFlagsKeys(f1, cols[1..], thresh);
      TargetsCons(cols);
    }
  }

  /** One step of the flag loop over columns that exist: the first flag is
      written and the rest of the loop runs over columns that still exist. */
  lemma FlagStep(f: Frame, cols: seq<string>, thresh: real)
    requires f.Valid()
    requires |cols| > 0 && forall m :: m in cols ==> m in f.cols
    ensures var f1 := SetColumn(f, ShutdownName(cols[0]), ShutdownFlag(f.cols[cols[0]], thresh));
            && AddShutdownFlags(f, cols, thresh) == AddShutdownFlags(f1, cols[1..], thresh)
            && f1.cols.Keys == f.cols.Keys + {ShutdownName(cols[0])}
            && forall m :: m in cols[1..] ==> m in f1.cols
  {
    assert forall m :: m in cols[1..] ==> m in cols;
  }

  /** A column the flag loop does not write keeps its values. */
  lemma {:induction false} AddShutdownFlagsKeeps(f: Frame, cols: seq<string>, thresh: real, n: string)
    requires f.Valid()
    requires forall m :: m in cols ==> m in f.cols
    requires n in f.cols && n !in Targets(cols)
    decreases |cols|
    ensures AddShutdownFlags(f, cols, thresh).Ok?
    ensures n in AddShutdownFlags(f, cols, thresh).value.cols
    ensures AddShutdownFlags(f, cols, thresh).value.cols[n] == f.cols[n]
  {
    AddShutdownFlagsKeys(f, cols, thresh);
    if |cols| > 0 {
      var c := cols[0];
      var f1 := SetColumn(f, ShutdownName(c), ShutdownFlag(f.cols[c], thresh));
      assert forall m :: m in cols[1..] ==> m in cols;
      assert ShutdownName(c) in Targets(cols);
      AddShutdownFlagsKeeps(f1, cols[1..], thresh, n);
    }
  }

  /** Each listed column gets the flag computed from its own values, provided
      no listed label is itself a flag label (otherwise a later step may read a
      flag column an earlier step wrote). */
  lemma {:induction false} AddShutdownFlagsFlag(f: Frame, cols: seq<string>, thresh: real, m: string)
    requires f.Valid()
    requires forall c :: c in cols ==> c in f.cols && !EndsWith(c, "_shutdown")
    requires m in cols
    decreases |cols|
    ensures AddShutdownFlags(f, cols, thresh).Ok?
    ensures ShutdownName(m) in AddShutdownFlags(f, cols, thresh).value.cols
    ensures AddShutdownFlags(f, cols, thresh).value.cols[ShutdownName(m)] == ShutdownFlag(f.cols[m], thresh)
  {
    var c, rest := cols[0], cols[1..];
    assert cols == [c] + rest;
    var f1 := SetColumn(f, ShutdownName(c), ShutdownFlag(f.cols[c], thresh));
    assert AddShutdownFlags(f, cols, thresh) == AddShutdownFlags(f1, rest, thresh);
    ShutdownNameEnds(c);
    if m in rest {
      assert m != ShutdownName(c);
      assert f1.cols[m] == f.cols[m];
      forall x | x in rest ensures x in f1.cols && !EndsWith(x, "_shutdown") {
        assert x in cols;
      }
      AddShutdownFlagsFlag(f1, rest, thresh, m);
    } else {
      assert m == c;
      AddShutdownFlagsFlagFirst(f, cols, thresh);
    }
  }

  /** The first listed column's flag survives the rest of the loop. */
  lemma AddShutdownFlagsFlagFirst(f: Frame, cols: seq<string>, thresh: real)
    requires f.Valid()
    requires forall c :: c in cols ==> c in f.cols && !EndsWith(c, "_shutdown")
    requires |cols| > 0 && cols[0] !in cols[1..]
    ensures AddShutdownFlags(f, cols, thresh).Ok?
    ensures ShutdownName(cols[0]) in AddShutdownFlags(f, cols, thresh).value.cols
    ensures AddShutdownFlags(f, cols, thresh).value.cols[ShutdownName(cols[0])] == ShutdownFlag(f.cols[cols[0]], thresh)
  {
    var c, rest := cols[0], cols[1..];
    assert cols == [c] + rest;
    var f1 := SetColumn(f, ShutdownName(c), ShutdownFlag(f.cols[c], thresh));
    assert AddShutdownFlags(f, cols, thresh) == AddShutdownFlags(f1, rest, thresh);
    forall x | x in rest ensures x in f1.cols {
      assert x in cols;
    }
    forall x | x in rest ensures ShutdownName(x) != ShutdownName(c) {
      ShutdownNameInjective(x, c);
    }
    AddShutdownFlagsKeeps(f1, rest, thresh, ShutdownName(c));
  }

  /** The `k`-th listed column, missing from the frame and not the flag label
      of any column listed before it, makes the loop fail with a KeyError for
      one of the first `k + 1` listed labels. */
  lemma {:induction false} AddShutdownFlagsMissing(f: Frame, cols: seq<string>, thresh: real, k: nat)
    requires f.Valid()
    requires k < |cols| && cols[k] !in f.cols
    requires forall j :: 0 <= j < k ==> ShutdownName(cols[j]) != cols[k]
    decreases k
    ensures AddShutdownFlags(f, cols, thresh).Err?
    ensures AddShutdownFlags(f, cols, thresh).error.KeyError?
    ensures AddShutdownFlags(f, cols, thresh).error.key in cols[..k + 1]
  {
    if cols[0] in f.cols {
      var f1 := SetColumn(f, ShutdownName(cols[0]), ShutdownFlag(f.cols[cols[0]], thresh));
      MissingShift(f, cols, thresh, k);
      AddShutdownFlagsMissing(f1, cols[1..], thresh, k - 1);
      PrefixTail(cols, k, AddShutdownFlags(f, cols, thresh).error.key);
    } else {
      assert cols[..k + 1][0] == cols[0];
    }
  }

  lemma PrefixTail(cols: seq<string>, k: nat, x: string)
    requires 0 < k < |cols| && x in cols[1..][..k]
    ensures x in cols[..k + 1]
  {
    assert cols[..k + 1] == [cols[0]] + cols[1..][..k];
  }

  /** One step of the flag loop moves the missing label one place forward. */
  lemma MissingShift(f: Frame, cols: seq<string>, thresh: real, k: nat)
    requires f.Valid()
    requires k < |cols| && cols[k] !in f.cols && cols[0] in f.cols
    requires forall j :: 0 <= j < k ==> ShutdownName(cols[j]) != cols[k]
    ensures 0 < k
    ensures var f1 := SetColumn(f, ShutdownName(cols[0]), ShutdownFlag(f.cols[cols[0]], thresh));
            && AddShutdownFlags(f, cols, thresh) == AddShutdownFlags(f1, cols[1..], thresh)
            && cols[1..][k - 1] !in f1.cols
            && forall j :: 0 <= j < k - 1 ==> ShutdownName(cols[1..][j]) != cols[1..][k - 1]
  {
    var rest := cols[1..];
    forall j | 0 <= j < k - 1 ensures ShutdownName(rest[j]) != rest[k - 1] {
      assert rest[j] == cols[j + 1];
    }
  }

  /** `identify_ct_shutdown` with its default columns: every `ct...kw` column
      gets a `_shutdown` flag that is 1 exactly where the value is below
      `thresh` and 0 elsewhere, and every column that is not a flag column,
      the sources included, is unchanged. */
  lemma IdentifyCtShutdownDefault(f: Frame, thresh: real)
    requires f.Valid()
    ensures IdentifyCtShutdown(f, [], thresh).Ok?
    ensures var g := IdentifyCtShutdown(f, [], thresh).value;
            && g.cols.Keys == f.cols.Keys + (set m | m in f.cols && IsCtKw(m) :: ShutdownName(m))
            && (forall m, i :: m in f.cols && IsCtKw(m) && 0 <= i < f.rows ==>
                  && (g.cols[ShutdownName(m)][i] == Some(1.0) <==> f.cols[m][i].Some? && f.cols[m][i].value < thresh)
                  && (g.cols[ShutdownName(m)][i] == Some(1.0) || g.cols[ShutdownName(m)][i] == Some(0.0)))
            && (forall n :: n in f.cols && !EndsWith(n, "_shutdown") ==> g.cols[n] == f.cols[n])
  {
    DefaultColumns(f);
    var cols := CtKwColumns(f.names);
    AddShutdownFlagsKeys(f, cols, thresh);
    var g := IdentifyCtShutdown(f, [], thresh).value;
    forall m | m in f.cols && IsCtKw(m)
      ensures g.cols[ShutdownName(m)] == ShutdownFlag(f.cols[m], thresh)
    {
      AddShutdownFlagsFlag(f, cols, thresh, m);
    }
    forall n | n in f.cols && !EndsWith(n, "_shutdown") ensures g.cols[n] == f.cols[n] {
      DefaultKeeps(f, thresh, n);
    }
  }

  /** The default columns exist, are no flag labels, and are flagged under
      exactly the labels of the `ct...kw` columns. */
  lemma DefaultColumns(f: Frame)
    requires f.Valid()
    ensures forall m :: m in CtKwColumns(f.names) ==> m in f.cols && !EndsWith(m, "_shutdown")
    ensures Targets(CtKwColumns(f.names)) == set m | m in f.cols && IsCtKw(m) :: ShutdownName(m)
  {
    forall m | m in CtKwColumns(f.names) ensures m in f.cols && !EndsWith(m, "_shutdown") {
      CtKwNotShutdown(m);
    }
  }

  lemma DefaultKeeps(f: Frame, thresh: real, n: string)
    requires f.Valid()
    requires n in f.cols && !EndsWith(n, "_shutdown")
    ensures IdentifyCtShutdown(f, [], thresh).Ok?
    ensures n in IdentifyCtShutdown(f, [], thresh).value.cols
    ensures IdentifyCtShutdown(f, [], thresh).value.cols[n] == f.cols[n]
  {
    var cols := CtKwColumns(f.names);
    DefaultColumns(f);
    forall m | m in cols ensures n != ShutdownName(m) {
      ShutdownNameEnds(m);
    }
    AddShutdownFlagsKeeps(f, cols, thresh, n);
  }

  /** Python's index into a sequence of length `n`: negative indices count from the end. */
  function PyIndex(idx: int, n: nat): (k: Option<nat>)
    ensures k.Some? <==> -(n as int) <= idx < n
    ensures k.Some? ==> k.value < n && (k.value == idx || k.value == idx + n)
  {
    if 0 <= idx < n then Some(idx) else if -(n as int) <= idx < 0 then Some(idx + n) else None
  }

  /** The inverse of `Affine` for a non-zero scale. */
  function Unaffine(y: real, scale: real, offset: real): (x: real)
    requires scale != 0.0
    ensures Affine(x, scale, offset) == y
  {
    (y - offset) / scale
  }

  lemma AffineInjective(x: real, y: real, scale: real, offset: real)
    requires scale != 0.0 && Affine(x, scale, offset) == Affine(y, scale, offset)
    ensures x == y
  {
    assert (x - y) * scale == 0.0;
  }

  /** `inverse_scale`: undoes the scaling of feature `idx` on a copy of the
      column; an index outside `min_` or `scale_` is an IndexError. Scaling a
      result back gives the input again. */
  function InverseScale(scaler: Scaler, col: Column, idx: int := 0): (r: Result<Column, PyError>)
    requires PyIndex(idx, |scaler.scale|).Some? ==> scaler.scale[PyIndex(idx, |scaler.scale|).value] != 0.0
    ensures r.Err? <==> PyIndex(idx, |scaler.min|).None? || PyIndex(idx, |scaler.scale|).None?
    ensures r.Err? ==> r.error == IndexError
    ensures r.Ok? ==> |r.value| == |col|
    ensures r.Ok? ==> forall i :: 0 <= i < |col| ==> (r.value[i].Some? <==> col[i].Some?)
    ensures r.Ok? ==> forall i :: 0 <= i < |col| && col[i].Some? ==>
              var k := PyIndex(idx, |scaler.scale|).value;
              var k' := PyIndex(idx, |scaler.min|).value;
              Affine(r.value[i].value, scaler.scale[k], scaler.min[k']) == col[i].value
  {
    match (PyIndex(idx, |scaler.min|), PyIndex(idx, |scaler.scale|))
    case (None, _) => Err(IndexError)
    case (_, None) => Err(IndexError)
    case (Some(k'), Some(k)) =>
      var s, m := scaler.scale[k], scaler.min[k'];
      Ok(seq(|col|, i requires 0 <= i < |col| => if col[i].Some? then Some(Unaffine(col[i].value, s, m)) else None))
  }

  /** `inverse_scale` exactly undoes `x * scale_[k] + min_[k]` over the reals. */
  lemma InverseScaleUndoesScale(scaler: Scaler, col: Column, k: nat)
    requires k < |scaler.scale| && k < |scaler.min| && scaler.scale[k] != 0.0
    ensures InverseScale(scaler, ScaleColumn(col, scaler.scale[k], scaler.min[k]), k) == Ok(col)
  {
    var s, m := scaler.scale[k], scaler.min[k];
    assert InverseScale(scaler, ScaleColumn(col, s, m), k).Ok?;
    var r := InverseScale(scaler, ScaleColumn(col, s, m), k).value;
    assert |r| == |col|;
    forall i | 0 <= i < |col| ensures r[i] == col[i] {
      if col[i].Some? {
        var v := col[i].value;
        assert r[i] == Some(Unaffine(Affine(v, s, m), s, m));
        AffineInjective(Unaffine(Affine(v, s, m), s, m), v, s, m);
      }
    }
    assert r == col;
  }

  /** Normalising a non-empty frame and inverting column `j` with the attached
      scaler gives the original column back. */
  lemma NormalizeThenInverse(f: Frame, cols: seq<string>, fit: seq<Column> -> Scaler, j: nat)
    requires f.Valid()
    requires forall cs: seq<Column> :: |fit(cs).scale| == |cs| && |fit(cs).min| == |cs|
    requires GetNormalizedDf(f, cols, fit).Ok? && f.rows > 0
    requires j < |Selected(f, cols)|
    requires GetNormalizedDf(f, cols, fit).value.Scaled? ==> GetNormalizedDf(f, cols, fit).value.scaler.scale[j] != 0.0
    ensures var n := GetNormalizedDf(f, cols, fit).value;
            n.Scaled? && InverseScale(n.scaler, n.cols[j], j) == Ok(f.cols[n.names[j]])
  {
    var n := GetNormalizedDf(f, cols, fit).value;
    InverseScaleUndoesScale(n.scaler, f.cols[n.names[j]], j);
  }
}

=== FILE: forms.dfy ===
/** The query-parameter forms of the dashboard API (dashboard/forms.py) as
    pure parse functions: each takes the submitted form data and returns the
    validated query or every field error, in field order. `strptime`, `int()`
    and the clock are parameters. */
module Forms {
  import opened Wrappers
  import opened Text

  /** Submitted form data: each name maps to the list of values sent for it. */
  type FormData = map<string, seq<string>>

  /** `formdata.getlist(name)`: no values when the name was not sent. */
  function ValueList(fd: FormData, name: string): seq<string>
  {
    if name in fd then fd[name] else []
  }

  // ---------------------------------------------------------------- ListField

  /** `ListField.process_formdata`: no data gives `[]`; otherwise the first
      value loses its outer commas, is split on "," and each item is trimmed. */
  function ParseList(data: seq<string>): (xs: seq<string>)
    ensures |data| == 0 ==> xs == []
    ensures |data| > 0 ==> |xs| >= 1
    ensures forall k :: 0 <= k < |xs| ==> ',' !in xs[k] && Trimmed(xs[k])
    ensures |data| > 0 ==>
              exists ps: seq<string> ::
                && Join(ps, ',') == Strip(data[0], {','})
                && |ps| == |xs|
                && forall k :: 0 <= k < |ps| ==> ',' !in ps[k] && xs[k] == Strip(ps[k], Whitespace)
  {
    if |data| == 0 then []
    else
      var body := Strip(data[0], {','});
      var parts := Split(body, ',');
      JoinSplit(body, ',');
      var xs := TrimAll(parts);
      assert forall k :: 0 <= k < |xs| ==> ',' !in xs[k] && Trimmed(xs[k]) by {
        forall k | 0 <= k < |xs| ensures ',' !in xs[k] && Trimmed(xs[k]) {
          assert xs[k] == Strip(parts[k], Whitespace);
        }
      }
      assert Join(parts, ',') == body && |parts| == |xs|;
      xs
  }

  /** Each piece trimmed of surrounding whitespace, in order. */
  function TrimAll(parts: seq<string>): (xs: seq<string>)
    ensures |xs| == |parts|
    ensures forall k :: 0 <= k < |parts| ==> xs[k] == Strip(parts[k], Whitespace)
  {
    seq(|parts|, k requires 0 <= k < |parts| => Strip(parts[k], Whitespace))
  }

  /** Neither starts nor ends with whitespace. */
  predicate Trimmed(s: string)
  {
    |s| == 0 || (s[0] !in Whitespace && s[|s| - 1] !in Whitespace)
  }

  /** `ListField._value`: the items joined by ",", or "" for no items. */
  function RenderList(xs: seq<string>): (s: string)
    ensures |xs| == 0 ==> s == ""
    ensures |xs| > 0 && (forall k :: 0 <= k < |xs| ==> ',' !in xs[k]) ==> Split(s, ',') == xs
  {
    if |xs| == 0 then ""
    else
      var s := Join(xs, ',');
      assert (forall k :: 0 <= k < |xs| ==> ',' !in xs[k]) ==> Split(s, ',') == xs by {
        if forall k :: 0 <= k < |xs| ==> ',' !in xs[k] {
          SplitJoin(xs, ',');
        }
      }
      s
  }

  lemma {:induction false} JoinEnds(xs: seq<string>, sep: char)
    requires |xs| > 0
    ensures |xs[0]| > 0 ==> |Join(xs, sep)| > 0 && Join(xs, sep)[0] == xs[0][0]
    ensures |xs[|xs| - 1]| > 0 ==>
              var j := Join(xs, sep);
              var l := xs[|xs| - 1];
              |j| > 0 && j[|j| - 1] == l[|l| - 1]
  {
    if |xs| > 1 {
      JoinEnds(xs[1..], sep);
      assert xs[1..][|xs[1..]| - 1] == xs[|xs| - 1];
    }
  }

  /** Rendering a list and parsing it back gives the list again, provided no
      item holds a comma or surrounding whitespace and the outer items are
      not empty (so no outer comma is stripped). */
  lemma ListRoundTrip(xs: seq<string>)
    requires |xs| > 0
    requires forall k :: 0 <= k < |xs| ==> ',' !in xs[k] && Trimmed(xs[k])
    requires xs[0] != "" && xs[|xs| - 1] != ""
    ensures ParseList([RenderList(xs)]) == xs
  {
    var s := Join(xs, ',');
    JoinStripped(xs);
    SplitJoin(xs, ',');
    TrimAllTrimmed(xs);
    assert RenderList(xs) == s;
  }

  lemma TrimAllTrimmed(xs: seq<string>)
    requires forall k :: 0 <= k < |xs| ==> Trimmed(xs[k])
    ensures TrimAll(xs) == xs
  {
    var ys := TrimAll(xs);
    forall k | 0 <= k < |xs| ensures ys[k] == xs[k] {
      TrimmedStrip(xs[k]);
    }
  }

  /** A join whose outer items are non-empty and comma-free has no outer comma. */
  lemma JoinStripped(xs: seq<string>)
    requires |xs| > 0
    requires ',' !in xs[0] && ',' !in xs[|xs| - 1]
    requires xs[0] != "" && xs[|xs| - 1] != ""
    ensures Strip(Join(xs, ','), {','}) == Join(xs, ',')
  {
    var s := Join(xs, ',');
    var a, l := xs[0], xs[|xs| - 1];
    JoinEnds(xs, ',');
    assert a[0] in a;
    assert l[|l| - 1] in l;
    OuterCharsKept(s, {','});
  }

  lemma OuterCharsKept(s: string, cs: set<char>)
    requires |s| > 0 && s[0] !in cs && s[|s| - 1] !in cs
    ensures Strip(s, cs) == s
  {
  }

  lemma TrimmedStrip(x: string)
    requires Trimmed(x)
    ensures Strip(x, Whitespace) == x
  {
  }


  /** The empty list renders as "", which parses back as one empty item. */
  lemma EmptyListRendersEmpty()
    ensures RenderList([]) == ""
    ensures ParseList([RenderList([])]) == [""]
  {
    assert Split("", ',') == [""];
  }

  // ---------------------------------------------------- FlexibleDateTimeField

  /** A date and time: days since an epoch, microseconds into the day, and
      whether it carries the UTC zone. */
  datatype Timestamp = Timestamp(day: int, micros: nat, utc: bool)

  /** The `strptime` formats the forms use. */
  datatype Format =
    | IsoMicros   // "%Y-%m-%dT%H:%M:%S.%f"
    | IsoSeconds  // "%Y-%m-%dT%H:%M:%S"
    | IsoDate     // "%Y-%m-%d"
    | TokenFormat // "%Y%m%d%H%M%S%f"

  /** The formats `FlexibleDateTimeField` tries, in order. */
  const DateFormats: seq<Format> := [IsoMicros, IsoSeconds, IsoDate]

  /** `strptime`, taken as given: `None` where it raises ValueError. */
  type Strptime = (string, Format) -> Option<Timestamp>

  /** The first format under which `s` parses, and what it parses to. */
  function FirstParse(s: string, fmts: seq<Format>, strptime: Strptime): (r: Option<Timestamp>)
    ensures r.None? <==> forall k :: 0 <= k < |fmts| ==> strptime(s, fmts[k]).None?
    ensures r.Some? ==> exists k :: 0 <= k < |fmts| && strptime(s, fmts[k]) == r
                          && forall j :: 0 <= j < k ==> strptime(s, fmts[j]).None?
  {
    if |fmts| == 0 then None
    else if strptime(s, fmts[0]).Some? then strptime(s, fmts[0])
    else
      var r := FirstParse(s, fmts[1..], strptime);
      assert forall k :: 1 <= k < |fmts| ==> fmts[k] == fmts[1..][k - 1];
      r
  }

  /** What `FlexibleDateTimeField.process_formdata` leaves behind. */
  datatype DateInput = Unset | Parsed(ts: Timestamp) | Invalid

  function ParseDateTime(data: seq<string>, strptime: Strptime): (r: DateInput)
    ensures |data| == 0 <==> r.Unset?
    ensures r.Invalid? <==> |data| > 0 && forall k :: 0 <= k < |DateFormats| ==> strptime(data[0], DateFormats[k]).None?
    ensures r.Parsed? ==> FirstParse(data[0], DateFormats, strptime) == Some(r.ts)
  {
    if |data| == 0 then Unset
    else match FirstParse(data[0], DateFormats, strptime)
      case Some(ts) => Parsed(ts)
      case None => Invalid
  }

  // ---------------------------------------------------------------- validators

  /** Why a field was rejected. */
  datatype Problem =
    | NotADateTime           // no format matched
    | NotAnInteger           // `IntegerField` could not convert
    | BadFreq(freq: string)
    | BadOrder
    | BadToken(token: string)
    | BadFunc(func: string)
    | EmptyField
    | UnsupportedField(field: string)

  /** A field's final value and its errors: the processing error first, then
      the one its validator raised. */
  datatype Checked<T> = Checked(value: T, problems: seq<Problem>)

  /** `.replace(tzinfo=pytz.UTC)`. */
  function TagUtc(t: Timestamp): (r: Timestamp)
    ensures r.utc && r.day == t.day && r.micros == t.micros
  {
    t.(utc := true)
  }

  /** `utcnow().replace(hour=0, minute=0, second=0, microsecond=0)`. */
  function Midnight(now: Timestamp): (r: Timestamp)
    ensures r.day == now.day && r.micros == 0 && r.utc == now.utc
  {
    now.(micros := 0)
  }

  /** Data left by the processing step, and its error. */
  function DateData(data: seq<string>, strptime: Strptime): (Option<Timestamp>, seq<Problem>)
  {
    match ParseDateTime(data, strptime)
    case Unset => (None, [])
    case Parsed(ts) => (Some(ts), [])
    case Invalid => (None, [NotADateTime])
  }

  /** `end` with `validate_end`: missing means today's midnight; tagged UTC. */
  function CheckEnd(data: seq<string>, strptime: Strptime, now: Timestamp): (r: Checked<Timestamp>)
    ensures r.value.utc
    ensures r.problems == [] <==> ParseDateTime(data, strptime) != Invalid
    ensures ParseDateTime(data, strptime).Parsed? ==> r.value == TagUtc(ParseDateTime(data, strptime).ts)
    ensures !ParseDateTime(data, strptime).Parsed? ==> r.value.day == now.day && r.value.micros == 0
  {
    var (d, ps) := DateData(data, strptime);
    Checked(TagUtc(if d.None? then Midnight(now) else d.value), ps)
  }

  /** `start` with `validate_start`: missing means two days before today's
      midnight, whatever `end` says; tagged UTC. */
  function CheckStart(data: seq<string>, strptime: Strptime, now: Timestamp): (r: Checked<Timestamp>)
    ensures r.value.utc
    ensures r.problems == [] <==> ParseDateTime(data, strptime) != Invalid
    ensures ParseDateTime(data, strptime).Parsed? ==> r.value == TagUtc(ParseDateTime(data, strptime).ts)
    ensures !ParseDateTime(data, strptime).Parsed? ==> r.value.day == now.day - 2 && r.value.micros == 0
  {
    var (d, ps) := DateData(data, strptime);
    Checked(TagUtc(if d.None? then DaysBefore(TagUtc(Midnight(now)), 2) else d.value), ps)
  }

  /** `- timedelta(days=n)`. */
  function DaysBefore(t: Timestamp, n: nat): (r: Timestamp)
    ensures r.day == t.day - n && r.micros == t.micros && r.utc == t.utc
  {
    t.(day := t.day - n)
  }

  /** `StringField` data: the first value, or "" when none was sent. */
  function StringData(data: seq<string>): string
  {
    if |data| == 0 then "" else data[0]
  }

  const Freqs: seq<string> := ["years", "months", "days", "hours", "minutes"]
  const Funcs: seq<string> := ["avg", "sum", "max", "min"]

  /** `validate_freq`: empty means "hours"; anything else outside `Freqs` is rejected. */
  function CheckFreq(data: seq<string>): (r: Checked<string>)
    ensures StringData(data) == "" ==> r.value == "hours"
    ensures StringData(data) != "" ==> r.value == StringData(data)
    ensures r.problems == [] <==> r.value in Freqs
    ensures r.problems != [] ==> r.problems == [BadFreq(r.value)]
  {
    var v := if StringData(data) == "" then "hours" else StringData(data);
    Checked(v, if v in Freqs then [] else [BadFreq(v)])
  }

  /** `validate_func`: empty means "avg"; anything else outside `Funcs` is rejected. */
  function CheckFunc(data: seq<string>): (r: Checked<string>)
    ensures StringData(data) == "" ==> r.value == "avg"
    ensures StringData(data) != "" ==> r.value == StringData(data)
    ensures r.problems == [] <==> r.value in Funcs
    ensures r.problems != [] ==> r.problems == [BadFunc(r.value)]
  {
    var v := if StringData(data) == "" then "avg" else StringData(data);
    Checked(v, if v in Funcs then [] else [BadFunc(v)])
  }

  /** `int()`, taken as given: `None` where it raises ValueError. */
  type ToInt = string -> Option<int>

  /** `order` with `validate_order`: an unconvertible value is a processing
      error and leaves no data; missing or 0 means 1; then only -1 and 1 pass. */
  function CheckOrder(data: seq<string>, toInt: ToInt): (r: Checked<int>)
    ensures r.value == -1 || r.value == 1 || r.problems == [BadOrder]
    ensures |data| == 0 ==> r == Checked(1, [])
    ensures |data| > 0 && toInt(data[0]).None? ==> r == Checked(1, [NotAnInteger])
    ensures |data| > 0 && toInt(data[0]).Some? ==>
              var n := toInt(data[0]).value;
              r.value == (if n == 0 then 1 else n)
              && (r.problems == [] <==> n in {-1, 0, 1})
  {
    var (d, ps) := if |data| == 0 then (None, [])
                   else if toInt(data[0]).None? then (None, [NotAnInteger])
                   else (toInt(data[0]), []);
    var v := if d.None? || d.value == 0 then 1 else d.value;
    Checked(v, ps + if v == -1 || v == 1 then [] else [BadOrder])
  }

  /** `validate_token`: an empty token stays absent; any other must parse
      under the token format and is tagged UTC. */
  function CheckToken(data: seq<string>, strptime: Strptime): (r: Checked<Option<Timestamp>>)
    ensures StringData(data) == "" ==> r == Checked(None, [])
    ensures StringData(data) != "" ==>
              match strptime(StringData(data), TokenFormat)
              case Some(ts) => r == Checked(Some(TagUtc(ts)), [])
              case None => r.problems == [BadToken(StringData(data))]
  {
    var s := StringData(data);
    if s == "" then Checked(None, [])
    else match strptime(s, TokenFormat)
      case Some(ts) => Checked(Some(TagUtc(ts)), [])
      case None => Checked(None, [BadToken(s)])
  }

  /** The only forecast field served. */
  const SupportedField: string := "cwshdr"

  /** `ForecastV1QueryForm.validate_field`: empty is rejected, and so is any
      value whose lower-case form is not "cwshdr"; the value keeps its case. */
  function CheckForecastField(data: seq<string>): (r: Checked<string>)
    ensures r.value == StringData(data)
    ensures r.problems == [] <==> StringData(data) != "" && AsciiLower(StringData(data)) == SupportedField
    ensures StringData(data) == "" ==> r.problems == [EmptyField]
  {
    var s := StringData(data);
    Checked(s, if s == "" then [EmptyField]
               else if AsciiLower(s) == SupportedField then []
               else [UnsupportedField(s)])
  }

  // --------------------------------------------------------------------- forms

  /** One error of one field. */
  datatype FieldError = FieldError(field: string, problem: Problem)

  function Tag(name: string, ps: seq<Problem>): (es: seq<FieldError>)
    ensures |es| == |ps|
    ensures forall k :: 0 <= k < |ps| ==> es[k] == FieldError(name, ps[k])
  {
    seq(|ps|, k requires 0 <= k < |ps| => FieldError(name, ps[k]))
  }

  datatype LogsQuery = LogsQuery(
    start: Timestamp, end: Timestamp, freq: string, fields: seq<string>,
    order: int, token: Option<Timestamp>, func: string)

  /** The errors `LogsQueryForm(formdata).validate()` collects, field by
      field in declaration order (`fields` never fails). */
  function LogsErrors(fd: FormData, strptime: Strptime, toInt: ToInt, now: Timestamp): seq<FieldError>
  {
    Tag("start", CheckStart(ValueList(fd, "start"), strptime, now).problems)
    + Tag("end", CheckEnd(ValueList(fd, "end"), strptime, now).problems)
    + Tag("freq", CheckFreq(ValueList(fd, "freq")).problems)
    + Tag("order", CheckOrder(ValueList(fd, "order"), toInt).problems)
    + Tag("token", CheckToken(ValueList(fd, "token"), strptime).problems)
    + Tag("func", CheckFunc(ValueList(fd, "func")).problems)
  }

  /** The dates a form ends up with, in terms of what was submitted: a parsed
      date is kept and tagged UTC, a missing start is two days before today's
      midnight and a missing end is today's midnight. */
  predicate SubmittedDates(fd: FormData, strptime: Strptime, now: Timestamp, start: Timestamp, end: Timestamp)
  {
    var s := ParseDateTime(ValueList(fd, "start"), strptime);
    var e := ParseDateTime(ValueList(fd, "end"), strptime);
    && (s.Parsed? ==> start == TagUtc(s.ts))
    && (s.Unset? ==> start == Timestamp(now.day - 2, 0, true))
    && (e.Parsed? ==> end == TagUtc(e.ts))
    && (e.Unset? ==> end == Timestamp(now.day, 0, true))
  }

  /** `LogsQueryForm(formdata).validate()`: the query, or every error. */
  function ParseLogsQuery(fd: FormData, strptime: Strptime, toInt: ToInt, now: Timestamp): (r: Result<LogsQuery, seq<FieldError>>)
    ensures r.Err? ==> |r.error| > 0 && forall e :: e in r.error ==> e.field in LogsFields
    ensures r.Ok? ==> r.value.freq in Freqs && r.value.func in Funcs && (r.value.order == -1 || r.value.order == 1)
    ensures r.Ok? ==> r.value.start.utc && r.value.end.utc
    ensures r.Ok? ==>
              && r.value.start == CheckStart(ValueList(fd, "start"), strptime, now).value
              && r.value.end == CheckEnd(ValueList(fd, "end"), strptime, now).value
              && r.value.freq == CheckFreq(ValueList(fd, "freq")).value
              && r.value.fields == ParseList(ValueList(fd, "fields"))
              && r.value.order == CheckOrder(ValueList(fd, "order"), toInt).value
              && r.value.token == CheckToken(ValueList(fd, "token"), strptime).value
              && r.value.func == CheckFunc(ValueList(fd, "func")).value
  {
    LogsErrorsNamed(fd, strptime, toInt, now);
    LogsErrorsEmpty(fd, strptime, toInt, now);
    var errors := LogsErrors(fd, strptime, toInt, now);
    if |errors| == 0 then
      Ok(LogsQuery(
        CheckStart(ValueList(fd, "start"), strptime, now).value,
        CheckEnd(ValueList(fd, "end"), strptime, now).value,
        CheckFreq(ValueList(fd, "freq")).value,
        ParseList(ValueList(fd, "fields")),
        CheckOrder(ValueList(fd, "order"), toInt).value,
        CheckToken(ValueList(fd, "token"), strptime).value,
        CheckFunc(ValueList(fd, "func")).value))
    else Err(errors)
  }

  datatype AbnormalitiesQuery = AbnormalitiesQuery(start: Timestamp, end: Timestamp, freq: string, field: string)

  /** `AbnormalitiesV1QueryForm(formdata).validate()`; `field` is not checked. */
  function ParseAbnormalitiesQuery(fd: FormData, strptime: Strptime, now: Timestamp): (r: Result<AbnormalitiesQuery, seq<FieldError>>)
    ensures r.Ok? <==>
              && ParseDateTime(ValueList(fd, "start"), strptime) != Invalid
              && ParseDateTime(ValueList(fd, "end"), strptime) != Invalid
              && CheckFreq(ValueList(fd, "freq")).value in Freqs
    ensures r.Ok? ==> r.value.start.utc && r.value.end.utc && r.value.freq in Freqs
    ensures r.Ok? ==> r.value.field == StringData(ValueList(fd, "field"))
    ensures r.Err? ==> |r.error| > 0 && forall e :: e in r.error ==> e.field in AbnormalitiesFields
    ensures r.Ok? ==>
              && r.value.start == CheckStart(ValueList(fd, "start"), strptime, now).value
              && r.value.end == CheckEnd(ValueList(fd, "end"), strptime, now).value
              && r.value.freq == CheckFreq(ValueList(fd, "freq")).value
    ensures r.Ok? ==> SubmittedDates(fd, strptime, now, r.value.start, r.value.end)
    ensures r.Ok? && StringData(ValueList(fd, "freq")) != "" ==> r.value.freq == StringData(ValueList(fd, "freq"))
  {
    var start := CheckStart(ValueList(fd, "start"), strptime, now);
    var end := CheckEnd(ValueList(fd, "end"), strptime, now);
    var freq := CheckFreq(ValueList(fd, "freq"));
    TagNames("start", start.problems);
    TagNames("end", end.problems);
    TagNames("freq", freq.problems);
    var errors := Tag("start", start.problems) + Tag("end", end.problems) + Tag("freq", freq.problems);
    if |errors| == 0 then Ok(AbnormalitiesQuery(start.value, end.value, freq.value, StringData(ValueList(fd, "field"))))
    else Err(errors)
  }

  /** `ForecastV1QueryForm(formdata).validate()`: the abnormalities form plus
      the check on `field`. */
  function ParseForecastQuery(fd: FormData, strptime: Strptime, now: Timestamp): (r: Result<AbnormalitiesQuery, seq<FieldError>>)
    ensures r.Ok? <==>
              && ParseDateTime(ValueList(fd, "start"), strptime) != Invalid
              && ParseDateTime(ValueList(fd, "end"), strptime) != Invalid
              && CheckFreq(ValueList(fd, "freq")).value in Freqs
              && StringData(ValueList(fd, "field")) != ""
              && AsciiLower(StringData(ValueList(fd, "field"))) == SupportedField
    ensures r.Ok? ==> r.value.start.utc && r.value.end.utc && r.value.freq in Freqs
    ensures r.Ok? ==> r.value.field == StringData(ValueList(fd, "field"))
    ensures r.Err? ==> |r.error| > 0 && forall e :: e in r.error ==> e.field in ForecastFields
    ensures r.Ok? ==>
              && r.value.start == CheckStart(ValueList(fd, "start"), strptime, now).value
              && r.value.end == CheckEnd(ValueList(fd, "end"), strptime, now).value
              && r.value.freq == CheckFreq(ValueList(fd, "freq")).value
    ensures r.Ok? ==> SubmittedDates(fd, strptime, now, r.value.start, r.value.end)
    ensures r.Ok? && StringData(ValueList(fd, "freq")) != "" ==> r.value.freq == StringData(ValueList(fd, "freq"))
  {
    var start := CheckStart(ValueList(fd, "start"), strptime, now);
    var end := CheckEnd(ValueList(fd, "end"), strptime, now);
    var freq := CheckFreq(ValueList(fd, "freq"));
    var field := CheckForecastField(ValueList(fd, "field"));
    TagNames("start", start.problems);
    TagNames("end", end.problems);
    TagNames("freq", freq.problems);
    TagNames("field", field.problems);
    var errors := Tag("start", start.problems) + Tag("end", end.problems) + Tag("freq", freq.problems)
                  + Tag("field", field.problems);
    if |errors| == 0 then Ok(AbnormalitiesQuery(start.value, end.value, freq.value, field.value))
    else Err(errors)
  }

  // ------------------------------------------------------------------ lemmas

  const LogsFields: seq<string> := ["start", "end", "freq", "order", "token", "func"]
  /** The validated fields of the abnormalities and forecast forms. */
  const AbnormalitiesFields: seq<string> := ["start", "end", "freq"]
  const ForecastFields: seq<string> := AbnormalitiesFields + ["field"]

  /** A logs query passes exactly when: both dates are absent or parse, the
      frequency and function are allowed (after their defaults), the order is
      absent or an integer among -1, 0 and 1, and the token is empty or
      parses. */
  lemma LogsQueryAccepts(fd: FormData, strptime: Strptime, toInt: ToInt, now: Timestamp)
    ensures var r := ParseLogsQuery(fd, strptime, toInt, now);
            var order := ValueList(fd, "order");
            var token := StringData(ValueList(fd, "token"));
            r.Ok? <==>
              && ParseDateTime(ValueList(fd, "start"), strptime) != Invalid
              && ParseDateTime(ValueList(fd, "end"), strptime) != Invalid
              && CheckFreq(ValueList(fd, "freq")).value in Freqs
              && (|order| == 0 || (toInt(order[0]).Some? && toInt(order[0]).value in {-1, 0, 1}))
              && (token == "" || strptime(token, TokenFormat).Some?)
              && CheckFunc(ValueList(fd, "func")).value in Funcs
  {
    var order := ValueList(fd, "order");
    var c := CheckOrder(order, toInt);
    assert c.problems == [] <==> (|order| == 0 || (toInt(order[0]).Some? && toInt(order[0]).value in {-1, 0, 1}));
  }

  lemma TagNames(name: string, ps: seq<Problem>)
    ensures forall e :: e in Tag(name, ps) ==> e.field == name
  {
  }

  /** A rejected logs query lists at least one error, each naming a field, and
      an unparseable start is reported as such even though its default is
      then filled in. */
  lemma LogsQueryErrors(fd: FormData, strptime: Strptime, toInt: ToInt, now: Timestamp)
    ensures var r := ParseLogsQuery(fd, strptime, toInt, now);
            r.Err? ==> |r.error| > 0 && forall e :: e in r.error ==> e.field in LogsFields
    ensures var r := ParseLogsQuery(fd, strptime, toInt, now);
            ParseDateTime(ValueList(fd, "start"), strptime) == Invalid ==>
              r.Err? && FieldError("start", NotADateTime) in r.error
  {
    LogsErrorsNamed(fd, strptime, toInt, now);
  }

  lemma LogsErrorsNamed(fd: FormData, strptime: Strptime, toInt: ToInt, now: Timestamp)
    ensures forall e :: e in LogsErrors(fd, strptime, toInt, now) ==> e.field in LogsFields
    ensures ParseDateTime(ValueList(fd, "start"), strptime) == Invalid ==>
              |LogsErrors(fd, strptime, toInt, now)| > 0 &&
              LogsErrors(fd, strptime, toInt, now)[0] == FieldError("start", NotADateTime)
  {
    var start := CheckStart(ValueList(fd, "start"), strptime, now).problems;
    TagNames("start", start);
    TagNames("end", CheckEnd(ValueList(fd, "end"), strptime, now).problems);
    TagNames("freq", CheckFreq(ValueList(fd, "freq")).problems);
    TagNames("order", CheckOrder(ValueList(fd, "order"), toInt).problems);
    TagNames("token", CheckToken(ValueList(fd, "token"), strptime).problems);
    TagNames("func", CheckFunc(ValueList(fd, "func")).problems);
    if ParseDateTime(ValueList(fd, "start"), strptime) == Invalid {
      assert Tag("start", start)[0] == FieldError("start", NotADateTime);
    }
  }

  /** An accepted logs query is well formed: allowed frequency and function,
      an order of -1 or 1, every date tagged UTC, list items without commas
      or surrounding whitespace, and a missing start two days before today's
      midnight whatever the end is. */
  lemma LogsQueryWellFormed(fd: FormData, strptime: Strptime, toInt: ToInt, now: Timestamp)
    ensures var r := ParseLogsQuery(fd, strptime, toInt, now);
            r.Ok? ==>
            var q := r.value;
            && q.freq in Freqs && q.func in Funcs && (q.order == -1 || q.order == 1)
            && q.start.utc && q.end.utc && (q.token.Some? ==> q.token.value.utc)
            && (forall k :: 0 <= k < |q.fields| ==> ',' !in q.fields[k] && Trimmed(q.fields[k]))
            && ("start" !in fd ==> q.start == Timestamp(now.day - 2, 0, true))
            && ("end" !in fd ==> q.end == Timestamp(now.day, 0, true))
  {
    var r := ParseLogsQuery(fd, strptime, toInt, now);
    if r.Ok? {
      MissingDates(fd, strptime, now);
      TokenUtc(ValueList(fd, "token"), strptime);
    }
  }

  /** A missing start or end takes its default. */
  lemma MissingDates(fd: FormData, strptime: Strptime, now: Timestamp)
    ensures "start" !in fd ==> CheckStart(ValueList(fd, "start"), strptime, now).value == Timestamp(now.day - 2, 0, true)
    ensures "end" !in fd ==> CheckEnd(ValueList(fd, "end"), strptime, now).value == Timestamp(now.day, 0, true)
  {
  }

  /** A token that is set is tagged UTC. */
  lemma TokenUtc(data: seq<string>, strptime: Strptime)
    ensures CheckToken(data, strptime).value.Some? ==> CheckToken(data, strptime).value.value.utc
  {
  }

  /** An accepted logs query carries what was submitted: the submitted dates
      (see `SubmittedDates`), a non-empty freq or func as sent, the submitted integer order (0 read as 1), the parsed
      token tagged UTC or no token for an empty one, and the parsed list. */
  lemma LogsQueryValues(fd: FormData, strptime: Strptime, toInt: ToInt, now: Timestamp)
    ensures var r := ParseLogsQuery(fd, strptime, toInt, now);
            var freq, func := StringData(ValueList(fd, "freq")), StringData(ValueList(fd, "func"));
            r.Ok? ==>
            && (freq != "" ==> r.value.freq == freq)
            && (func != "" ==> r.value.func == func)
            && r.value.fields == ParseList(ValueList(fd, "fields"))
            && SubmittedDates(fd, strptime, now, r.value.start, r.value.end)
    ensures var r := ParseLogsQuery(fd, strptime, toInt, now);
            var order := ValueList(fd, "order");
            r.Ok? && |order| > 0 ==>
              toInt(order[0]).Some? && r.value.order == (if toInt(order[0]).value == 0 then 1 else toInt(order[0]).value)
    ensures var r := ParseLogsQuery(fd, strptime, toInt, now);
            var token := StringData(ValueList(fd, "token"));
            r.Ok? ==>
            && (token == "" ==> r.value.token == None)
            && (token != "" ==> strptime(token, TokenFormat).Some? && r.value.token == Some(TagUtc(strptime(token, TokenFormat).value)))
  {
    LogsErrorsEmpty(fd, strptime, toInt, now);
  }

  /** No error is collected exactly when every field passes its check. */
  lemma LogsErrorsEmpty(fd: FormData, strptime: Strptime, toInt: ToInt, now: Timestamp)
    ensures LogsErrors(fd, strptime, toInt, now) == [] <==>
              && CheckStart(ValueList(fd, "start"), strptime, now).problems == []
              && CheckEnd(ValueList(fd, "end"), strptime, now).problems == []
              && CheckFreq(ValueList(fd, "freq")).problems == []
              && CheckOrder(ValueList(fd, "order"), toInt).problems == []
              && CheckToken(ValueList(fd, "token"), strptime).problems == []
              && CheckFunc(ValueList(fd, "func")).problems == []
  {
  }

  /** With nothing submitted every default applies. */
  lemma LogsQueryDefaults(strptime: Strptime, toInt: ToInt, now: Timestamp)
    ensures ParseLogsQuery(map[], strptime, toInt, now)
            == Ok(LogsQuery(Timestamp(now.day - 2, 0, true), Timestamp(now.day, 0, true), "hours", [], 1, None, "avg"))
  {
    var fd: FormData := map[];
    assert forall n :: ValueList(fd, n) == [];
    assert CheckStart([], strptime, now) == Checked(Timestamp(now.day - 2, 0, true), []);
    assert CheckEnd([], strptime, now) == Checked(Timestamp(now.day, 0, true), []);
    assert CheckFreq([]) == Checked("hours", []);
    assert CheckOrder([], toInt) == Checked(1, []);
    assert CheckToken([], strptime) == Checked(None, []);
    assert CheckFunc([]) == Checked("avg", []);
    assert LogsErrors(fd, strptime, toInt, now) == [];
  }

  /** The forecast form is the abnormalities form plus the `field` check: it
      accepts exactly what that form accepts with a supported field, and then
      gives the same query. */
  lemma ForecastRefinesAbnormalities(fd: FormData, strptime: Strptime, now: Timestamp)
    ensures ParseForecastQuery(fd, strptime, now).Ok? <==>
              && ParseAbnormalitiesQuery(fd, strptime, now).Ok?
              && StringData(ValueList(fd, "field")) != ""
              && AsciiLower(StringData(ValueList(fd, "field"))) == SupportedField
    ensures ParseForecastQuery(fd, strptime, now).Ok? ==>
              ParseForecastQuery(fd, strptime, now) == ParseAbnormalitiesQuery(fd, strptime, now)
  {
  }

  /** With the dates and frequency passing, the forecast field decides:
      it is matched without regard to ASCII case and kept as sent. */
  lemma ForecastFieldKeepsCase(fd: FormData, strptime: Strptime, now: Timestamp)
    requires ParseDateTime(ValueList(fd, "start"), strptime) != Invalid
    requires ParseDateTime(ValueList(fd, "end"), strptime) != Invalid
    requires CheckFreq(ValueList(fd, "freq")).value in Freqs
    ensures var r := ParseForecastQuery(fd, strptime, now);
            r.Ok? <==> AsciiLower(StringData(ValueList(fd, "field"))) == SupportedField
    ensures var r := ParseForecastQuery(fd, strptime, now);
            r.Ok? ==> r.value.field == StringData(ValueList(fd, "field"))
  {
  }

  /** An empty forecast field is an error of its own. */
  lemma ForecastFieldEmpty(fd: FormData, strptime: Strptime, now: Timestamp)
    requires StringData(ValueList(fd, "field")) == ""
    ensures var r := ParseForecastQuery(fd, strptime, now);
            r.Err? && FieldError("field", EmptyField) in r.error
  {
    var r := ParseForecastQuery(fd, strptime, now);
    var es := Tag("start", CheckStart(ValueList(fd, "start"), strptime, now).problems)
              + Tag("end", CheckEnd(ValueList(fd, "end"), strptime, now).problems)
              + Tag("freq", CheckFreq(ValueList(fd, "freq")).problems);
    assert r.error == es + [FieldError("field", EmptyField)];
  }
}

=== FILE: frames.dfy ===
/** A pandas data frame as a row count, ordered column labels and one column
    per label, with the column selection and assignment the preprocessing uses. */
module Frames {
  import opened Wrappers
  import opened Series

  datatype Frame = Frame(rows: nat, names: seq<string>, cols: map<string, Column>)
  {
    /** Labels are distinct, label every column, and every column has `rows` cells. */
    ghost predicate Valid()
    {
      && (forall i, j :: 0 <= i < j < |names| ==> names[i] != names[j])
      && (forall n :: n in cols <==> n in names)
      && (forall n :: n in cols ==> |cols[n]| == rows)
    }
  }

  /** `cols or df.columns`: an empty selection means every column. */
  function Selected(f: Frame, cols: seq<string>): (sel: seq<string>)
    ensures |cols| > 0 ==> sel == cols
    ensures |cols| == 0 ==> sel == f.names
  {
    if |cols| == 0 then f.names else cols
  }

  /** The first selected label that is not a column of `f`, if any. */
  function FirstMissing(f: Frame, sel: seq<string>): (m: Option<string>)
    ensures m.None? <==> forall n :: n in sel ==> n in f.cols
    ensures m.Some? ==> m.value in sel && m.value !in f.cols
  {
    if |sel| == 0 then None
    else if sel[0] !in f.cols then Some(sel[0])
    else FirstMissing(f, sel[1..])
  }

  /** `df[sel]`: the selected columns, in selection order. */
  function Columns(f: Frame, sel: seq<string>): (cs: seq<Column>)
    requires forall n :: n in sel ==> n in f.cols
    ensures |cs| == |sel|
    ensures forall j :: 0 <= j < |sel| ==> cs[j] == f.cols[sel[j]]
  {
    seq(|sel|, j requires 0 <= j < |sel| => f.cols[sel[j]])
  }

  /** `df[sel] = t(df[sel])`, column by column: pandas raises KeyError for an
      unknown label; otherwise exactly the selected columns are replaced. */
  function MapColumns(f: Frame, sel: seq<string>, t: Column -> Column): (r: Result<Frame, PyError>)
    requires f.Valid()
    requires forall c: Column :: |t(c)| == |c|
    ensures r.Err? <==> exists n :: n in sel && n !in f.cols
    ensures r.Err? ==> r.error.KeyError? && r.error.key in sel && r.error.key !in f.cols
    ensures r.Ok? ==> r.value.Valid() && r.value.rows == f.rows && r.value.names == f.names
    ensures r.Ok? ==> r.value.cols.Keys == f.cols.Keys
    ensures r.Ok? ==> forall n :: n in f.cols && n in sel ==> r.value.cols[n] == t(f.cols[n])
    ensures r.Ok? ==> forall n :: n in f.cols && n !in sel ==> r.value.cols[n] == f.cols[n]
  {
    match FirstMissing(f, sel)
    case Some(n) => Err(KeyError(n))
    case None => Ok(Frame(f.rows, f.names, map n | n in f.cols :: if n in sel then t(f.cols[n]) else f.cols[n]))
  }

  /** `df[name] = col`: replaces an existing column in place or appends a new one. */
  function SetColumn(f: Frame, name: string, col: Column): (r: Frame)
    requires f.Valid() && |col| == f.rows
    ensures r.Valid() && r.rows == f.rows
    ensures r.cols == f.cols[name := col]
    ensures r.names == if name in f.cols then f.names else f.names + [name]
  {
    Frame(f.rows, if name in f.cols then f.names else f.names + [name], f.cols[name := col])
  }
}

=== FILE: metrics.dfy ===
/** `mean_absolute_percent_error_ignore_zero` (notebooks/common.py): the mean
    absolute percentage error over the positions whose true value is not 0. */
module Metrics {
  import opened Wrappers
  import opened Series

  /** A true value takes part unless it equals 0; NaN does, since `NaN != 0`. */
  predicate Counted(t: Cell)
  {
    t != Some(0.0)
  }

  function Abs(x: real): (a: real)
    ensures a >= 0.0 && (a == x || a == -x)
  {
    if x < 0.0 then -x else x
  }

  /** `np.abs((t - p) / t)` at one counted position; NaN on either side gives NaN. */
  function Term(t: Cell, p: Cell): (e: Cell)
    requires Counted(t)
    ensures e.Some? <==> t.Some? && p.Some?
    ensures e.Some? ==> e.value >= 0.0
  {
    if t.Some? && p.Some? then Some(Abs((t.value - p.value) / t.value)) else None
  }

  /** `y_predict[i]` where it exists; the caller rules out the rest. */
  function At(p: Column, i: nat): Cell
  {
    if i < |p| then p[i] else None
  }

  /** The error terms of the counted positions among the first `n`, in order. */
  function Terms(t: Column, p: Column, n: nat): (es: seq<Cell>)
    requires n <= |t|
    ensures |es| <= n
  {
    if n == 0 then []
    else Terms(t, p, n - 1) + (if Counted(t[n - 1]) then [Term(t[n - 1], At(p, n - 1))] else [])
  }

  /** Float addition of a running total: NaN absorbs everything. */
  function CellSum(es: seq<Cell>): Cell
    decreases |es|
  {
    if |es| == 0 then Some(0.0)
    else
      var s := CellSum(es[..|es| - 1]);
      var e := es[|es| - 1];
      if s.Some? && e.Some? then Some(s.value + e.value) else None
  }

  /** The reference definition: indexing past `y_predict` at a counted
      position raises IndexError, no counted position means `0 / 0`, and
      otherwise the result is 100 times the mean of the terms (NaN if any is). */
  function MapeRef(t: Column, p: Column): (r: Result<Cell, PyError>)
    ensures r.Err? ==> r.error == IndexError || r.error == ZeroDivisionError
    ensures r.Ok? && r.value.Some? ==> r.value.value >= 0.0
  {
    if exists i :: |p| <= i < |t| && Counted(t[i]) then Err(IndexError)
    else
      var es := Terms(t, p, |t|);
      if |es| == 0 then Err(ZeroDivisionError)
      else match CellSum(es)
        case None => Ok(None)
        case Some(s) =>
          CellSumPresent(es);
          TermsSumNonNegative(t, p);
          assert s >= 0.0 && |es| as real > 0.0;
          Ok(Some(s / |es| as real * 100.0))
  }

  lemma {:induction false} TermsEmpty(t: Column, p: Column, n: nat)
    requires n <= |t|
    ensures |Terms(t, p, n)| == 0 <==> forall i :: 0 <= i < n ==> !Counted(t[i])
  {
    if n > 0 {
      TermsEmpty(t, p, n - 1);
    }
  }

  lemma {:induction false} TermsNaN(t: Column, p: Column, n: nat)
    requires n <= |t|
    ensures None in Terms(t, p, n) <==> exists i :: 0 <= i < n && Counted(t[i]) && (t[i].None? || At(p, i).None?)
  {
    if n > 0 {
      TermsNaN(t, p, n - 1);
    }
  }

  /** The running total is NaN exactly when a term is, and otherwise the sum
      of the terms. */
  lemma {:induction false} CellSumPresent(es: seq<Cell>)
    ensures CellSum(es).None? <==> None in es
    ensures CellSum(es).Some? ==> |Present(es)| == |es| && CellSum(es).value == Sum(Present(es))
    decreases |es|
  {
    if |es| > 0 {
      var init := es[..|es| - 1];
      CellSumPresent(init);
      assert es == init + [es[|es| - 1]];
    }
  }

  lemma {:induction false} SumNonNegative(xs: seq<real>)
    requires forall k :: 0 <= k < |xs| ==> xs[k] >= 0.0
    ensures Sum(xs) >= 0.0
    decreases |xs|
  {
    if |xs| > 0 {
      SumNonNegative(xs[..|xs| - 1]);
    }
  }

  lemma {:induction false} TermsNonNegative(t: Column, p: Column, n: nat)
    requires n <= |t|
    ensures forall k :: 0 <= k < |Terms(t, p, n)| && Terms(t, p, n)[k].Some? ==> Terms(t, p, n)[k].value >= 0.0
  {
    if n > 0 {
      TermsNonNegative(t, p, n - 1);
    }
  }

  /** The error cases of the reference: an IndexError exactly when a counted
      position lies past `y_predict`, a ZeroDivisionError exactly when every
      true value is 0 and none is out of range. */
  lemma MapeRefErrors(t: Column, p: Column)
    ensures MapeRef(t, p) == Err(IndexError) <==> exists i :: |p| <= i < |t| && Counted(t[i])
    ensures MapeRef(t, p) == Err(ZeroDivisionError) <==> forall i :: 0 <= i < |t| ==> !Counted(t[i])
    ensures MapeRef(t, p).Err? ==> MapeRef(t, p).error == IndexError || MapeRef(t, p).error == ZeroDivisionError
  {
    TermsEmpty(t, p, |t|);
  }

  /** A successful result is NaN exactly when a counted position holds NaN on
      either side; otherwise it is 100 times the mean of the terms, and never
      negative. */
  lemma MapeRefValue(t: Column, p: Column)
    requires MapeRef(t, p).Ok?
    ensures MapeRef(t, p).value.None? <==> exists i :: 0 <= i < |t| && Counted(t[i]) && (t[i].None? || p[i].None?)
    ensures MapeRef(t, p).value.Some? ==>
              var vs := Present(Terms(t, p, |t|));
              && |vs| > 0
              && MapeRef(t, p).value.value == Mean(vs) * 100.0
              && MapeRef(t, p).value.value >= 0.0
  {
    var es := Terms(t, p, |t|);
    TermsNaN(t, p, |t|);
    CellSumPresent(es);
    if exists i :: 0 <= i < |t| && Counted(t[i]) && (t[i].None? || p[i].None?) {
      var i :| 0 <= i < |t| && Counted(t[i]) && (t[i].None? || p[i].None?);
      assert At(p, i) == p[i];
    }
  }

  /** The present error terms add up to a non-negative total. */
  lemma TermsSumNonNegative(t: Column, p: Column)
    ensures Sum(Present(Terms(t, p, |t|))) >= 0.0
  {
    var es := Terms(t, p, |t|);
    TermsNonNegative(t, p, |t|);
    var vs := Present(es);
    forall k | 0 <= k < |vs| ensures vs[k] >= 0.0 {
      PresentMembers(es, vs[k]);
    }
    SumNonNegative(vs);
  }

  /** A prediction equal to the truth, with no NaN and some non-zero truth,
      scores 0. */
  lemma MapePerfect(t: Column)
    requires forall i :: 0 <= i < |t| ==> t[i].Some?
    requires exists i :: 0 <= i < |t| && Counted(t[i])
    ensures MapeRef(t, t) == Ok(Some(0.0))
  {
    PerfectTerms(t);
    var es := Terms(t, t, |t|);
    assert 0.0 / |es| as real * 100.0 == 0.0;
  }

  /** With the prediction equal to a NaN-free truth that has a non-zero value,
      there is some term and the terms add up to exactly 0. */
  lemma PerfectTerms(t: Column)
    requires forall i :: 0 <= i < |t| ==> t[i].Some?
    requires exists i :: 0 <= i < |t| && Counted(t[i])
    ensures |Terms(t, t, |t|)| > 0 && CellSum(Terms(t, t, |t|)) == Some(0.0)
  {
    TermsEmpty(t, t, |t|);
    TermsNaN(t, t, |t|);
    var es := Terms(t, t, |t|);
    CellSumPresent(es);
    ZeroTerms(t, t, |t|);
    var vs := Present(es);
    forall k | 0 <= k < |vs| ensures vs[k] == 0.0 {
      PresentMembers(es, vs[k]);
    }
    SumZero(vs);
  }

  lemma {:induction false} ZeroTerms(t: Column, p: Column, n: nat)
    requires n <= |t|
    requires forall i :: 0 <= i < n ==> At(p, i) == t[i]
    ensures forall k :: 0 <= k < |Terms(t, p, n)| ==> Terms(t, p, n)[k] == None || Terms(t, p, n)[k] == Some(0.0)
  {
    if n > 0 {
      ZeroTerms(t, p, n - 1);
    }
  }

  lemma {:induction false} SumZero(xs: seq<real>)
    requires forall k :: 0 <= k < |xs| ==> xs[k] == 0.0
    ensures Sum(xs) == 0.0
    decreases |xs|
  {
    if |xs| > 0 {
      SumZero(xs[..|xs| - 1]);
    }
  }

  lemma MapeRefTail(t: Column, p: Column)
    requires forall j :: 0 <= j < |t| && Counted(t[j]) ==> j < |p|
    ensures var es := Terms(t, p, |t|);
            MapeRef(t, p) == if |es| == 0 then Err(ZeroDivisionError)
                             else if CellSum(es).None? then Ok(None)
                             else Ok(Some(CellSum(es).value / |es| as real * 100.0))
  {
  }

  lemma MapeRefOutOfRange(t: Column, p: Column, i: nat)
    requires |p| <= i < |t| && Counted(t[i])
    ensures MapeRef(t, p) == Err(IndexError)
  {
  }

  lemma CellSumStep(es: seq<Cell>, e: Cell)
    ensures CellSum(es + [e]) == if CellSum(es).Some? && e.Some? then Some(CellSum(es).value + e.value) else None
  {
    assert (es + [e])[..|es|] == es;
  }

  /** `mean_absolute_percent_error_ignore_zero` as the loop it is: it agrees
      with the reference definition on every input. */
  method Mape(t: Column, p: Column) returns (r: Result<Cell, PyError>)
    ensures r == MapeRef(t, p)
  {
    var cnt: nat := 0;
    var tot: Cell := Some(0.0);
    for i := 0 to |t|
      invariant forall j :: 0 <= j < i && Counted(t[j]) ==> j < |p|
      invariant cnt == |Terms(t, p, i)|
      invariant tot == CellSum(Terms(t, p, i))
    {
      if t[i] != Some(0.0) {
        if i >= |p| {
          MapeRefOutOfRange(t, p, i);
          return Err(IndexError);
        }
        var e := Term(t[i], p[i]);
        assert Terms(t, p, i + 1) == Terms(t, p, i) + [e];
        CellSumStep(Terms(t, p, i), e);
        tot := if tot.Some? && e.Some? then Some(tot.value + e.value) else None;
        cnt := cnt + 1;
      } else {
        assert Terms(t, p, i + 1) == Terms(t, p, i);
      }
    }
    MapeRefTail(t, p);
    if cnt == 0 {
      return Err(ZeroDivisionError);
    }
    match tot
    case None => r := Ok(None);
    case Some(s) => r := Ok(Some(s / cnt as real * 100.0));
  }
}

=== FILE: process.dfy ===
/** The data frame preprocessing of the dashboard's forecast path
    (dashboard/process.py): null filling, threshold nulling with forward fill,
    smoothing and the empty guard of normalisation. Each operation returns the
    new frame instead of writing into the caller's. */
module Process {
  import opened Wrappers
  import opened Series
  import opened Cleaning
  import opened Frames
  import opened Text
  import opened Scaling

  /** Window of the rolling mean `replace_nulls` fills with. */
  const NullWindow: nat := 5
  /** Window of the rolling mean `smooth_data` smooths with. */
  const SmoothWindow: nat := 10
  /** Default threshold of `replace_with_near`. */
  const NearThreshold: real := 0.1

  /** `replace_nulls`: in the selected columns, every value present is kept and
      a NaN is filled exactly when some value is present at or above it. */
  function ReplaceNulls(f: Frame, cols: seq<string>): (r: Result<Frame, PyError>)
    requires f.Valid()
    ensures r.Err? <==> exists n :: n in Selected(f, cols) && n !in f.cols
    ensures r.Ok? ==> r.value.Valid() && r.value.rows == f.rows && r.value.names == f.names
    ensures r.Ok? ==> forall n :: n in f.cols && n !in Selected(f, cols) ==> r.value.cols[n] == f.cols[n]
    ensures r.Ok? ==> forall n, i :: n in Selected(f, cols) && 0 <= i < f.rows ==>
              && (f.cols[n][i].Some? ==> r.value.cols[n][i] == f.cols[n][i])
              && (r.value.cols[n][i].Some? <==> exists j :: 0 <= j <= i && f.cols[n][j].Some?)
    ensures r.Ok? ==> forall n :: n in Selected(f, cols) ==> r.value.cols[n] == FillNulls(f.cols[n], NullWindow)
  {
    var r := MapColumns(f, Selected(f, cols), c => FillNulls(c, NullWindow));
    if r.Ok? then
      assert forall n, i :: n in Selected(f, cols) && 0 <= i < f.rows ==>
          (r.value.cols[n][i].Some? <==> exists j :: 0 <= j <= i && f.cols[n][j].Some?) by {
        forall n, i | n in Selected(f, cols) && 0 <= i < f.rows
          ensures r.value.cols[n][i].Some? <==> exists j :: 0 <= j <= i && f.cols[n][j].Some?
        {
          FillNullsDefined(f.cols[n], NullWindow, i);
        }
      }
      r
    else r
  }

  /** The selected labels that do not end in `_bin`. */
  function WithoutBinary(names: seq<string>): (r: seq<string>)
    ensures forall n :: n in r <==> n in names && !EndsWith(n, "_bin")
  {
    if |names| == 0 then []
    else (if EndsWith(names[0], "_bin") then [] else [names[0]]) + WithoutBinary(names[1..])
  }

  /** `replace_with_near`: `_bin` columns and unselected columns are untouched;
      in the others a value below `thresh` or a NaN takes the nearest value at or
      above the threshold higher up, and every value left is at least `thresh`. */
  function ReplaceWithNear(f: Frame, cols: seq<string>, thresh: real := NearThreshold): (r: Result<Frame, PyError>)
    requires f.Valid()
    ensures r.Err? <==> exists n :: n in Selected(f, cols) && !EndsWith(n, "_bin") && n !in f.cols
    ensures r.Ok? ==> r.value.Valid() && r.value.rows == f.rows && r.value.names == f.names
    ensures r.Ok? ==> forall n :: n in f.cols && (n !in Selected(f, cols) || EndsWith(n, "_bin")) ==>
                r.value.cols[n] == f.cols[n]
    ensures r.Ok? ==> forall n, i :: n in Selected(f, cols) && !EndsWith(n, "_bin") && 0 <= i < f.rows ==>
              && (AtLeast(f.cols[n][i], thresh) ==> r.value.cols[n][i] == f.cols[n][i])
              && (r.value.cols[n][i].Some? ==> r.value.cols[n][i].value >= thresh)
              && NearestAtLeast(f.cols[n], thresh, i, r.value.cols[n][i])
  {
    var r := MapColumns(f, WithoutBinary(Selected(f, cols)), c => NearFill(c, thresh));
    if r.Ok? then
      assert forall n, i :: n in Selected(f, cols) && !EndsWith(n, "_bin") && 0 <= i < f.rows ==>
          NearestAtLeast(f.cols[n], thresh, i, r.value.cols[n][i]) by {
        forall n, i | n in Selected(f, cols) && !EndsWith(n, "_bin") && 0 <= i < f.rows
          ensures NearestAtLeast(f.cols[n], thresh, i, r.value.cols[n][i])
        {
          NearFillNearest(f.cols[n], thresh, i);
        }
      }
      r
    else r
  }

  /** `smooth_data`: each selected cell becomes the mean of the values present
      in its row and the nine rows above it (fewer at the top), NaN if none. */
  function SmoothData(f: Frame, cols: seq<string>): (r: Result<Frame, PyError>)
    requires f.Valid()
    ensures r.Err? <==> exists n :: n in Selected(f, cols) && n !in f.cols
    ensures r.Ok? ==> r.value.Valid() && r.value.rows == f.rows && r.value.names == f.names
    ensures r.Ok? ==> forall n :: n in f.cols && n !in Selected(f, cols) ==> r.value.cols[n] == f.cols[n]
    ensures r.Ok? ==> forall n, i :: n in Selected(f, cols) && 0 <= i < f.rows ==>
              var vs := Present(f.cols[n][if i >= 9 then i - 9 else 0..i + 1]);
              r.value.cols[n][i] == if |vs| == 0 then None else Some(Mean(vs))
  {
    MapColumns(f, Selected(f, cols), c => RollingMean(c, SmoothWindow))
  }

  /** What `get_normalized_df` returns: an empty frame as it came, without a
      scaler, or the selected columns scaled, with the scaler attached. */
  datatype Normalized =
    | Unchanged(frame: Frame)
    | Scaled(names: seq<string>, cols: seq<Column>, scaler: Scaler)

  /** `get_normalized_df`: a frame without rows comes back unchanged and no
      scaler is fitted; a frame with rows but nothing to select makes
      `MinMaxScaler.fit_transform` reject its input; otherwise the scaler `fit`
      returns for the selected columns is applied to each of them. */
  function GetNormalizedDf(f: Frame, cols: seq<string>, fit: seq<Column> -> Scaler): (r: Result<Normalized, PyError>)
    requires f.Valid()
    requires forall cs: seq<Column> :: |fit(cs).scale| == |cs| && |fit(cs).min| == |cs|
    ensures f.rows == 0 ==> r == Ok(Unchanged(f))
    ensures f.rows > 0 ==> (r.Err? <==> |Selected(f, cols)| == 0 || exists n :: n in Selected(f, cols) && n !in f.cols)
    ensures f.rows > 0 && |Selected(f, cols)| == 0 ==> r == Err(ValueError)
    ensures f.rows > 0 && r.Err? && |Selected(f, cols)| > 0 ==>
              r.error.KeyError? && r.error.key in Selected(f, cols) && r.error.key !in f.cols
    ensures f.rows > 0 && r.Ok? ==> r.value.Scaled? && r.value.names == Selected(f, cols)
    ensures f.rows > 0 && r.Ok? ==> r.value.scaler == fit(Columns(f, Selected(f, cols)))
    ensures f.rows > 0 && r.Ok? ==>
              var sel := Selected(f, cols);
              |r.value.cols| == |sel| == |r.value.scaler.scale| == |r.value.scaler.min| &&
              forall j :: 0 <= j < |sel| ==>
                r.value.cols[j] == ScaleColumn(f.cols[sel[j]], r.value.scaler.scale[j], r.value.scaler.min[j])
  {
    if f.rows == 0 then Ok(Unchanged(f))
    else
      var sel := Selected(f, cols);
      match FirstMissing(f, sel)
      case Some(n) => Err(KeyError(n))
      case None =>
        if |sel| == 0 then Err(ValueError)
        else
          var data := Columns(f, sel);
          var scaler := fit(data);
          Ok(Scaled(sel, seq(|sel|, j requires 0 <= j < |sel| => ScaleColumn(data[j], scaler.scale[j], scaler.min[j])), scaler))
  }
}

=== FILE: scaling.dfy ===
/** The transform of a fitted scikit-learn `MinMaxScaler`, taken as given
    per-column `(scale_, min_)` parameters. */
module Scaling {
  import opened Wrappers
  import opened Series

  /** `scale_[j]` and `min_[j]` map column `j` by `x * scale_[j] + min_[j]`. */
  datatype Scaler = Scaler(scale: seq<real>, min: seq<real>)

  /** The map `x * scale + offset` the scaler applies to one value. */
  function Affine(x: real, scale: real, offset: real): real
  {
    x * scale + offset
  }

  /** `MinMaxScaler.transform` on one column; NaN passes through. */
  function ScaleColumn(s: Column, scale: real, offset: real): (r: Column)
    ensures |r| == |s|
    ensures forall i :: 0 <= i < |s| ==> (r[i].Some? <==> s[i].Some?)
  {
    seq(|s|, i requires 0 <= i < |s| => if s[i].Some? then Some(Affine(s[i].value, scale, offset)) else None)
  }
}

=== FILE: series.dfy ===
/** A data frame column as a sequence of optional reals (NaN is `None`), with
    the two pandas primitives the preprocessing is built from: the trailing
    rolling mean with `min_periods=1` and forward filling (`fillna(method="pad")`). */
module Series {
  import opened Wrappers

  type Cell = Option<real>
  type Column = seq<Cell>

  /** The values of a column that are not NaN, in order. */
  function Present(s: Column): (vs: seq<real>)
    ensures |vs| <= |s|
  {
    if |s| == 0 then []
    else Present(s[..|s| - 1]) + (if s[|s| - 1].Some? then [s[|s| - 1].value] else [])
  }

  function Sum(xs: seq<real>): real
  {
    if |xs| == 0 then 0.0 else Sum(xs[..|xs| - 1]) + xs[|xs| - 1]
  }

  function Mean(xs: seq<real>): real
    requires |xs| > 0
  {
    Sum(xs) / |xs| as real
  }

  /** First row of the trailing window of width `w` that ends at row `i`. */
  function WindowStart(i: nat, w: nat): (lo: nat)
    requires w > 0
    ensures lo <= i
    ensures i - lo < w
    ensures lo == 0 || i - lo == w - 1
  {
    if i + 1 >= w then i + 1 - w else 0
  }

  /** `rolling(w, min_periods=1).mean()` at row `i`: the mean of the values
      present in rows WindowStart(i, w)..i, NaN when there are none. */
  function WindowMean(s: Column, w: nat, i: nat): Cell
    requires w > 0 && i < |s|
  {
    var vs := Present(s[WindowStart(i, w)..i + 1]);
    if |vs| == 0 then None else Some(Mean(vs))
  }

  function RollingMean(s: Column, w: nat): (r: Column)
    requires w > 0
    ensures |r| == |s|
    ensures forall i :: 0 <= i < |s| ==> r[i] == WindowMean(s, w, i)
  {
    seq(|s|, i requires 0 <= i < |s| => WindowMean(s, w, i))
  }

  /** `fillna(other)`: NaN cells take the cell of `fill` in the same row. */
  function FillNa(s: Column, fill: Column): (r: Column)
    requires |fill| == |s|
    ensures |r| == |s|
    ensures forall i :: 0 <= i < |s| ==> r[i] == (if s[i].Some? then s[i] else fill[i])
  {
    seq(|s|, i requires 0 <= i < |s| => if s[i].Some? then s[i] else fill[i])
  }

  /** Forward fill carrying `last`, the most recent value seen before `s`. */
  function PadFrom(s: Column, last: Cell): (r: Column)
    ensures |r| == |s|
    ensures forall i :: 0 <= i < |s| && s[i].Some? ==> r[i] == s[i]
    ensures |s| > 0 && s[0].None? ==> r[0] == last
    ensures forall i :: 0 < i < |s| && s[i].None? ==> r[i] == r[i - 1]
  {
    if |s| == 0 then []
    else
      var c := if s[0].Some? then s[0] else last;
      [c] + PadFrom(s[1..], c)
  }

  /** `fillna(method="pad")`: a NaN takes the last value present above it. */
  function ForwardFill(s: Column): (r: Column)
    ensures |r| == |s|
    ensures forall i :: 0 <= i < |s| && s[i].Some? ==> r[i] == s[i]
    ensures |s| > 0 && s[0].None? ==> r[0].None?
    ensures forall i :: 0 < i < |s| && s[i].None? ==> r[i] == r[i - 1]
  {
    PadFrom(s, None)
  }

  /** Reference meaning of forward filling: `r` is the value of the nearest
      row at or above `i` that holds a value, or NaN when there is none. */
  ghost predicate NearestPresent(s: Column, i: nat, r: Cell)
    requires i < |s|
  {
    if exists j :: 0 <= j <= i && s[j].Some?
    then exists j :: 0 <= j <= i && s[j].Some? && r == s[j] && forall k :: j < k <= i ==> s[k].None?
    else r.None?
  }

  lemma {:induction false} ForwardFillNearest(s: Column, i: nat)
    requires i < |s|
    ensures NearestPresent(s, i, ForwardFill(s)[i])
  {
    var r := ForwardFill(s);
    if s[i].Some? {
      assert 0 <= i <= i && s[i].Some? && r[i] == s[i];
    } else if i == 0 {
      assert forall j :: 0 <= j <= i ==> s[j] == s[0];
    } else {
      ForwardFillNearest(s, i - 1);
      assert r[i] == r[i - 1];
      if exists j :: 0 <= j <= i - 1 && s[j].Some? {
        var j :| 0 <= j <= i - 1 && s[j].Some? && r[i - 1] == s[j] && forall k :: j < k <= i - 1 ==> s[k].None?;
        assert forall k :: j < k <= i ==> s[k].None?;
      } else {
        assert forall j :: 0 <= j <= i ==> s[j].None? by {
          forall j | 0 <= j <= i ensures s[j].None? {
            if j < i { assert !(0 <= j <= i - 1 && s[j].Some?); }
          }
        }
      }
    }
  }

  /** A forward-filled cell holds a value exactly when some row at or above it does. */
  lemma ForwardFillDefined(s: Column, i: nat)
    requires i < |s|
    ensures ForwardFill(s)[i].Some? <==> exists j :: 0 <= j <= i && s[j].Some?
  {
    ForwardFillNearest(s, i);
  }

  /** Forward filling an already filled column changes nothing. */
  lemma ForwardFillIdempotent(s: Column)
    ensures ForwardFill(ForwardFill(s)) == ForwardFill(s)
  {
    var r := ForwardFill(s);
    var rr := ForwardFill(r);
    forall i | 0 <= i < |s| ensures rr[i] == r[i] {
      if r[i].None? {
        ForwardFillDefined(s, i);
        forall j | 0 <= j <= i ensures r[j].None? {
          ForwardFillDefined(s, j);
        }
        ForwardFillDefined(r, i);
      }
    }
  }

  /** `Present` keeps exactly the values present in the column. */
  lemma {:induction false} PresentMembers(s: Column, v: real)
    ensures v in Present(s) <==> Some(v) in s
  {
    if |s| > 0 {
      PresentMembers(s[..|s| - 1], v);
      assert s == s[..|s| - 1] + [s[|s| - 1]];
    }
  }

  /** Some value is present in a column exactly when `Present` is non-empty. */
  lemma {:induction false} PresentNonEmpty(s: Column)
    ensures |Present(s)| > 0 <==> exists i :: 0 <= i < |s| && s[i].Some?
  {
    if |s| > 0 {
      var n := |s| - 1;
      PresentNonEmpty(s[..n]);
      if exists i :: 0 <= i < |s| && s[i].Some? {
        var i :| 0 <= i < |s| && s[i].Some?;
        if i < n { assert s[..n][i] == s[i]; }
      }
      if exists i :: 0 <= i < n && s[..n][i].Some? {
        var i :| 0 <= i < n && s[..n][i].Some?;
        assert s[i] == s[..n][i];
      }
    }
  }

  lemma {:induction false} SumBounds(xs: seq<real>, lo: real, hi: real)
    requires forall k :: 0 <= k < |xs| ==> lo <= xs[k] <= hi
    ensures lo * |xs| as real <= Sum(xs) <= hi * |xs| as real
  {
    if |xs| > 0 {
      SumBounds(xs[..|xs| - 1], lo, hi);
    }
  }

  /** A mean lies between any bounds of the values it averages. */
  lemma MeanBounds(xs: seq<real>, lo: real, hi: real)
    requires |xs| > 0
    requires forall k :: 0 <= k < |xs| ==> lo <= xs[k] <= hi
    ensures lo <= Mean(xs) <= hi
  {
    SumBounds(xs, lo, hi);
    var n := |xs| as real;
    assert lo * n <= Sum(xs) <= hi * n;
    assert lo == (lo * n) / n;
    assert hi == (hi * n) / n;
  }

  /** The present values of a window all lie between bounds on the whole column. */
  lemma PresentWithin(s: Column, lo: real, hi: real)
    requires forall i :: 0 <= i < |s| && s[i].Some? ==> lo <= s[i].value <= hi
    ensures forall k :: 0 <= k < |Present(s)| ==> lo <= Present(s)[k] <= hi
  {
    forall k | 0 <= k < |Present(s)| ensures lo <= Present(s)[k] <= hi {
      var v := Present(s)[k];
      PresentMembers(s, v);
      var i :| 0 <= i < |s| && s[i] == Some(v);
    }
  }

  /** A rolling mean stays within any bounds of the values present in the column. */
  lemma RollingMeanWithin(s: Column, w: nat, lo: real, hi: real)
    requires w > 0
    requires forall i :: 0 <= i < |s| && s[i].Some? ==> lo <= s[i].value <= hi
    ensures forall i :: 0 <= i < |s| && RollingMean(s, w)[i].Some? ==> lo <= RollingMean(s, w)[i].value <= hi
  {
    forall i | 0 <= i < |s| && RollingMean(s, w)[i].Some?
      ensures lo <= RollingMean(s, w)[i].value <= hi
    {
      var win := s[WindowStart(i, w)..i + 1];
      PresentWithin(win, lo, hi);
      MeanBounds(Present(win), lo, hi);
    }
  }

  /** The rolling mean of row `i` holds a value exactly when some row of its window does. */
  lemma RollingMeanDefined(s: Column, w: nat, i: nat)
    requires w > 0 && i < |s|
    ensures RollingMean(s, w)[i].Some? <==> exists j :: WindowStart(i, w) <= j <= i && s[j].Some?
  {
    var lo := WindowStart(i, w);
    var win := s[lo..i + 1];
    PresentNonEmpty(win);
    if exists j :: lo <= j <= i && s[j].Some? {
      var j :| lo <= j <= i && s[j].Some?;
      assert win[j - lo] == s[j];
    }
  }
}

=== FILE: text.dfy ===
/** The Python `str` operations the query forms and column filters rely on:
    `strip`, `split` on one character, `join`, `startswith`, `endswith` and
    `lower`. */
module Text {

  /** The characters Python's `str.strip()` removes (`str.isspace()`). */
  const Whitespace: set<char> := {
    '\t', '\n', '\U{B}', '\U{C}', '\r', '\U{1C}', '\U{1D}', '\U{1E}', '\U{1F}', ' ',
    '\U{85}', '\U{A0}', '\U{1680}',
    '\U{2000}', '\U{2001}', '\U{2002}', '\U{2003}', '\U{2004}', '\U{2005}',
    '\U{2006}', '\U{2007}', '\U{2008}', '\U{2009}', '\U{200A}',
    '\U{2028}', '\U{2029}', '\U{202F}', '\U{205F}', '\U{3000}'
  }

  predicate StartsWith(s: string, prefix: string)
  {
    |prefix| <= |s| && s[..|prefix|] == prefix
  }

  predicate EndsWith(s: string, suffix: string)
  {
    |suffix| <= |s| && s[|s| - |suffix|..] == suffix
  }

  /** `s.lstrip(cs)`: drops the leading characters that are in `cs`. */
  function LStrip(s: string, cs: set<char>): (r: string)
    ensures |r| <= |s| && r == s[|s| - |r|..]
    ensures |r| > 0 ==> r[0] !in cs
    ensures forall k :: 0 <= k < |s| - |r| ==> s[k] in cs
  {
    if |s| > 0 && s[0] in cs then LStrip(s[1..], cs) else s
  }

  /** `s.rstrip(cs)`: drops the trailing characters that are in `cs`. */
  function RStrip(s: string, cs: set<char>): (r: string)
    ensures |r| <= |s| && r == s[..|r|]
    ensures |r| > 0 ==> r[|r| - 1] !in cs
    ensures forall k :: |r| <= k < |s| ==> s[k] in cs
  {
    if |s| > 0 && s[|s| - 1] in cs then RStrip(s[..|s| - 1], cs) else s
  }

  /** `s.strip(cs)`: the longest middle part of `s` that neither starts nor
      ends with a character of `cs`. */
  function Strip(s: string, cs: set<char>): (r: string)
    ensures forall c :: c in r ==> c in s
    ensures |r| > 0 ==> r[0] !in cs && r[|r| - 1] !in cs
    ensures (|s| == 0 || (s[0] !in cs && s[|s| - 1] !in cs)) ==> r == s
    ensures exists i, j :: 0 <= i <= j <= |s| && r == s[i..j]
              && (forall k :: 0 <= k < i ==> s[k] in cs)
              && (forall k :: j <= k < |s| ==> s[k] in cs)
  {
    var l := LStrip(s, cs);
    StripMiddle(s, cs, l, RStrip(l, cs));
    RStrip(l, cs)
  }

  /** Dropping a prefix of `cs` characters and then a suffix of them leaves a
      middle slice of `s`. */
  lemma StripMiddle(s: string, cs: set<char>, l: string, r: string)
    requires |l| <= |s| && l == s[|s| - |l|..]
    requires forall k :: 0 <= k < |s| - |l| ==> s[k] in cs
    requires |r| <= |l| && r == l[..|r|]
    requires forall k :: |r| <= k < |l| ==> l[k] in cs
    ensures forall c :: c in r ==> c in s
    ensures exists i, j :: 0 <= i <= j <= |s| && r == s[i..j]
              && (forall k :: 0 <= k < i ==> s[k] in cs)
              && (forall k :: j <= k < |s| ==> s[k] in cs)
  {
    var i := |s| - |l|;
    var j := i + |r|;
    assert r == s[i..j];
    forall k | j <= k < |s| ensures s[k] in cs {
      assert s[k] == l[k - i];
    }
    forall c | c in r ensures c in s {
      var m :| 0 <= m < |r| && r[m] == c;
      assert s[i + m] == c;
    }
  }

  /** `s.split(sep)` for a one-character separator: the pieces between the
      separators, empty pieces included. */
  function Split(s: string, sep: char): (parts: seq<string>)
    ensures |parts| >= 1
    ensures forall k :: 0 <= k < |parts| ==> sep !in parts[k]
  {
    if |s| == 0 then [""]
    else
      var rest := Split(s[1..], sep);
      if s[0] == sep then [""] + rest
      else [[s[0]] + rest[0]] + rest[1..]
  }

  /** `sep.join(xs)`. */
  function Join(xs: seq<string>, sep: char): string
  {
    if |xs| == 0 then ""
    else if |xs| == 1 then xs[0]
    else xs[0] + [sep] + Join(xs[1..], sep)
  }

  /** A separator-free prefix is glued onto the first piece of what follows it. */
  lemma {:induction false} SplitPrefix(a: string, rest: string, sep: char)
    requires sep !in a
    ensures Split(a + rest, sep) == [a + Split(rest, sep)[0]] + Split(rest, sep)[1..]
  {
    if |a| > 0 {
      var parts := Split(rest, sep);
      SplitPrefix(a[1..], rest, sep);
      assert (a + rest)[1..] == a[1..] + rest;
      assert (a + rest)[0] == a[0] && a[0] != sep;
      var r := Split(a[1..] + rest, sep);
      assert r[0] == a[1..] + parts[0] && r[1..] == parts[1..];
      assert [a[0]] + (a[1..] + parts[0]) == a + parts[0];
    } else {
      var parts := Split(rest, sep);
      assert a + rest == rest;
      assert a + parts[0] == parts[0];
      assert parts == [parts[0]] + parts[1..];
    }
  }

  /** Splitting a join of separator-free pieces gives the pieces back. */
  lemma {:induction false} SplitJoin(xs: seq<string>, sep: char)
    requires |xs| > 0
    requires forall k :: 0 <= k < |xs| ==> sep !in xs[k]
    ensures Split(Join(xs, sep), sep) == xs
  {
    if |xs| == 1 {
      SplitPrefix(xs[0], "", sep);
      assert xs[0] + "" == xs[0];
    } else {
      var tail := Join(xs[1..], sep);
      SplitJoin(xs[1..], sep);
      SplitPrefix(xs[0], [sep] + tail, sep);
      assert xs[0] + [sep] + tail == xs[0] + ([sep] + tail);
      assert ([sep] + tail)[1..] == tail;
      assert Split([sep] + tail, sep) == [""] + xs[1..];
      assert xs[0] + "" == xs[0];
      assert xs == [xs[0]] + xs[1..];
    }
  }

  /** Joining the pieces of a split gives the string back. */
  lemma {:induction false} JoinSplit(s: string, sep: char)
    ensures Join(Split(s, sep), sep) == s
  {
    if |s| > 0 {
      var rest := Split(s[1..], sep);
      JoinSplit(s[1..], sep);
      if s[0] == sep {
        assert Split(s, sep)[1..] == rest;
        assert s == [sep] + s[1..];
      } else {
        var parts := Split(s, sep);
        assert parts[0] == [s[0]] + rest[0];
        assert parts[1..] == rest[1..];
        assert s == [s[0]] + s[1..];
      }
    }
  }

  function AsciiLowerChar(c: char): char
  {
    if 'A' <= c <= 'Z' then (c as int + 32) as char else c
  }

  /** `s.lower()` restricted to ASCII letters. */
  function AsciiLower(s: string): (r: string)
    ensures |r| == |s|
    ensures forall k :: 0 <= k < |s| ==> r[k] == AsciiLowerChar(s[k])
  {
    seq(|s|, k requires 0 <= k < |s| => AsciiLowerChar(s[k]))
  }
}

=== FILE: windowing.dfy ===
/** Lookback windows for the sequence model: `prepare_features` builds one
    (feature window, target) pair per offset, `equalize_length` trims the pairs
    to a multiple of the batch size and `prepare_keras_data` shapes them for
    Keras. */
module Windowing {
  import opened Wrappers
  import opened Series
  import opened Frames
  import opened Arrays

  /** Number of pairs `prepare_features` builds from `rows` rows with lookback
      `n`: the length of `range(rows - n - 1)`. */
  function WindowCount(rows: nat, n: nat): (k: nat)
    ensures k == if rows > n + 1 then rows - n - 1 else 0
  {
    if rows > n + 1 then rows - n - 1 else 0
  }

  function Flatten<T>(xss: seq<seq<T>>): seq<T>
  {
    if |xss| == 0 then [] else xss[0] + Flatten(xss[1..])
  }

  lemma {:induction false} FlattenLength<T>(xss: seq<seq<T>>, c: nat)
    requires forall i :: 0 <= i < |xss| ==> |xss[i]| == c
    ensures |Flatten(xss)| == |xss| * c
  {
    if |xss| > 0 {
      FlattenLength(xss[1..], c);
      assert |xss| * c == c + (|xss| - 1) * c;
    }
  }

  /** Blocks of equal length `c` are laid end to end: block `i` starts at `i * c`. */
  lemma {:induction false} FlattenAt<T>(xss: seq<seq<T>>, c: nat, i: nat, k: nat)
    requires forall i :: 0 <= i < |xss| ==> |xss[i]| == c
    requires i < |xss| && k < c
    ensures i * c + k < |Flatten(xss)|
    ensures Flatten(xss)[i * c + k] == xss[i][k]
  {
    FlattenLength(xss, c);
    if i > 0 {
      FlattenAt(xss[1..], c, i - 1, k);
      assert i * c + k == c + ((i - 1) * c + k);
    }
  }

  /** Does `xs` hold `|xs|` arrays of shape (b, c)? */
  ghost predicate Rectangular<T>(xs: seq<seq<seq<T>>>, b: nat, c: nat)
  {
    forall i :: 0 <= i < |xs| ==> |xs[i]| == b && forall j :: 0 <= j < b ==> |xs[i][j]| == c
  }

  /** `np.array(xs)` for a list of (b, c) arrays: shape (|xs|, b, c), except
      that an empty list gives the one-dimensional shape (0,). */
  function Stack<T>(xs: seq<seq<seq<T>>>, b: nat, c: nat): (a: Array<T>)
    requires Rectangular(xs, b, c)
    ensures a.Valid()
    ensures |xs| == 0 ==> a.shape == [0]
    ensures |xs| > 0 ==> a.shape == [|xs|, b, c]
  {
    if |xs| == 0 then
      assert Size([0]) == 0;
      Array([0], [])
    else
      var blocks := seq(|xs|, i requires 0 <= i < |xs| => Flatten(xs[i]));
      forall i | 0 <= i < |xs| ensures |blocks[i]| == b * c {
        FlattenLength(xs[i], c);
      }
      FlattenLength(blocks, b * c);
      Size3(|xs|, b, c);
      Array([|xs|, b, c], Flatten(blocks))
  }

  lemma StackAt<T>(xs: seq<seq<seq<T>>>, b: nat, c: nat, i: nat, j: nat, k: nat)
    requires Rectangular(xs, b, c) && |xs| > 0
    requires i < |xs| && j < b && k < c
    ensures At3(Stack(xs, b, c), i, j, k) == xs[i][j][k]
  {
    var blocks := seq(|xs|, i requires 0 <= i < |xs| => Flatten(xs[i]));
    forall i' | 0 <= i' < |xs| ensures |blocks[i']| == b * c {
      FlattenLength(xs[i'], c);
    }
    Index3InRange(1, b, c, 0, j, k);
    assert (0 * b + j) * c + k == j * c + k;
    assert 1 * (b * c) == b * c;
    FlattenAt(blocks, b * c, i, j * c + k);
    FlattenAt(xs[i], c, j, k);
    Regroup(i, j, k, b, c);
    assert (i * b + j) * c + k == i * (b * c) + (j * c + k);
  }

  /** Row `r` of `dataframe[features].values`. */
  function FeatureRow(f: Frame, features: seq<string>, r: nat): (row: seq<Cell>)
    requires f.Valid() && r < f.rows
    requires forall c :: c in features ==> c in f.cols
    ensures |row| == |features|
    ensures forall c :: 0 <= c < |features| ==> row[c] == f.cols[features[c]][r]
  {
    seq(|features|, c requires 0 <= c < |features| => f.cols[features[c]][r])
  }

  /** The feature windows of `prepare_features`: window `i` is the `n` feature
      rows starting at row `i`. */
  function FeatureWindows(f: Frame, features: seq<string>, n: nat): (xs: seq<seq<seq<Cell>>>)
    requires f.Valid()
    requires forall c :: c in features ==> c in f.cols
    ensures |xs| == WindowCount(f.rows, n)
    ensures Rectangular(xs, n, |features|)
    ensures forall i, j :: 0 <= i < |xs| && 0 <= j < n ==> i + j < f.rows && xs[i][j] == FeatureRow(f, features, i + j)
  {
    var k := WindowCount(f.rows, n);
    var rows := seq(f.rows, r requires 0 <= r < f.rows => FeatureRow(f, features, r));
    seq(k, i requires 0 <= i < k => rows[i..i + n])
  }

  /** The target vector of `prepare_features`: element `i` is the target at
      row `i + n`. */
  function TargetVector(f: Frame, target: string, n: nat): (a: Array<Cell>)
    requires f.Valid() && target in f.cols
    ensures a.Valid() && a.shape == [WindowCount(f.rows, n)]
    ensures |a.data| == WindowCount(f.rows, n)
    ensures forall i :: 0 <= i < |a.data| ==> i + n + 1 < f.rows && a.data[i] == f.cols[target][i + n]
  {
    var k := WindowCount(f.rows, n);
    assert Size([k]) == k by { assert [k][1..] == []; }
    Array([k], seq(k, i requires 0 <= i < k => f.cols[target][i + n]))
  }

  /** `prepare_features`: pair `i` has the feature rows i..i+n-1 and the target
      of row i+n, for every i below `rows - n - 1`; an unknown column is a
      KeyError. */
  function PrepareFeatures(f: Frame, features: seq<string>, target: string, n: nat := 1)
    : (r: Result<(Array<Cell>, Array<Cell>), PyError>)
    requires f.Valid()
    ensures r.Err? <==> (exists c :: c in features && c !in f.cols) || target !in f.cols
    ensures r.Err? ==> r.error.KeyError?
    ensures r.Ok? ==> r.value.0.Valid() && r.value.1.Valid()
    ensures r.Ok? ==> r.value.1.shape == [WindowCount(f.rows, n)] && |r.value.1.data| == WindowCount(f.rows, n)
    ensures r.Ok? ==> r.value.0.shape == (if WindowCount(f.rows, n) == 0 then [0]
                                          else [WindowCount(f.rows, n), n, |features|])
    ensures r.Ok? ==> forall i :: 0 <= i < WindowCount(f.rows, n) ==>
              i + n + 1 < f.rows && r.value.1.data[i] == f.cols[target][i + n]
  {
    match FirstMissing(f, features)
    case Some(c) => Err(KeyError(c))
    case None =>
      if target !in f.cols then Err(KeyError(target))
      else Ok((Stack(FeatureWindows(f, features, n), n, |features|), TargetVector(f, target, n)))
  }

  /** The feature window of pair `i` holds feature `c` of row `i + j` at (i, j, c). */
  lemma PrepareFeaturesWindow(f: Frame, features: seq<string>, target: string, n: nat, i: nat, j: nat, c: nat)
    requires f.Valid() && PrepareFeatures(f, features, target, n).Ok?
    requires i < WindowCount(f.rows, n) && j < n && c < |features|
    ensures At3(PrepareFeatures(f, features, target, n).value.0, i, j, c) == f.cols[features[c]][i + j]
  {
    StackAt(FeatureWindows(f, features, n), n, |features|, i, j, c);
  }

  /** Consecutive pairs share n - 1 feature rows: row j + 1 of window i is row
      j of window i + 1. */
  lemma WindowsOverlap(f: Frame, features: seq<string>, target: string, n: nat, i: nat, j: nat, c: nat)
    requires f.Valid() && PrepareFeatures(f, features, target, n).Ok?
    requires i + 1 < WindowCount(f.rows, n) && j + 1 < n && c < |features|
    ensures var x := PrepareFeatures(f, features, target, n).value.0;
            At3(x, i, j + 1, c) == At3(x, i + 1, j, c)
  {
    PrepareFeaturesWindow(f, features, target, n, i, j + 1, c);
    PrepareFeaturesWindow(f, features, target, n, i + 1, j, c);
  }

  lemma MulLe(m: nat, cnt: nat, rs: nat)
    requires m <= cnt
    ensures m * rs <= cnt * rs
    ensures (cnt - m) * rs == cnt * rs - m * rs
  {
  }

  lemma MulSign(b: int, y: int)
    requires b > 0
    ensures y >= 1 ==> b * y >= b
    ensures y <= -1 ==> b * y <= -b
  {
    assert b * y == b * (y - 1) + b;
    assert b * y == b * (y + 1) - b;
  }

  /** What is left after dropping `cnt % batch` entries is a multiple of `batch`. */
  lemma TrimMultiple(cnt: nat, batch: nat)
    requires batch > 0
    ensures cnt % batch <= cnt
    ensures (cnt - cnt % batch) % batch == 0
  {
    var q, m := cnt / batch, cnt % batch;
    assert cnt == batch * q + m;
    var k := cnt - m;
    var d, e := k / batch, k % batch;
    assert k == batch * d + e;
    assert batch * (q - d) == e by {
      assert batch * q - batch * d == batch * (q - d);
    }
    MulSign(batch, q - d);
  }

  /** `equalize_length`: keeps `cnt - cnt % batch` of the `cnt` entries along the
      first axis, dropping the first `cnt % batch` when `where` is "start" and the
      last ones otherwise. */
  function EqualizeLength<T>(a: Array<T>, batch: nat, where: string := "start"): (r: Result<Array<T>, PyError>)
    requires a.Valid()
    ensures |a.shape| == 0 ==> r == Err(IndexError)
    ensures |a.shape| > 0 && batch == 0 ==> r == Err(ZeroDivisionError)
    ensures |a.shape| > 0 && batch > 0 ==>
              && r.Ok? && r.value.Valid()
              && r.value.shape == [a.shape[0] - a.shape[0] % batch] + a.shape[1..]
              && r.value.shape[0] % batch == 0
              && |a.data| - |r.value.data| == (a.shape[0] % batch) * Size(a.shape[1..])
    ensures r.Ok? && where == "start" ==> r.value.data == a.data[|a.data| - |r.value.data|..]
    ensures r.Ok? && where != "start" ==> r.value.data == a.data[..|r.value.data|]
  {
    if |a.shape| == 0 then Err(IndexError)
    else if batch == 0 then Err(ZeroDivisionError)
    else
      var cnt := a.shape[0];
      var m := cnt % batch;
      var rest := a.shape[1..];
      var rs := Size(rest);
      TrimSizes(a, batch);
      if where == "start" then Ok(Array([cnt - m] + rest, a.data[m * rs..]))
      else Ok(Array([cnt - m] + rest, a.data[..(cnt - m) * rs]))
  }

  /** The sizes `equalize_length` works with, for an array with at least one axis. */
  lemma TrimSizes<T>(a: Array<T>, batch: nat)
    requires a.Valid() && |a.shape| > 0 && batch > 0
    ensures var cnt, m, rs := a.shape[0], a.shape[0] % batch, Size(a.shape[1..]);
            && m <= cnt && (cnt - m) % batch == 0
            && |a.data| == cnt * rs
            && m * rs <= |a.data|
            && Size([cnt - m] + a.shape[1..]) == (cnt - m) * rs == |a.data| - m * rs
  {
    var cnt, m, rest := a.shape[0], a.shape[0] % batch, a.shape[1..];
    var rs := Size(rest);
    assert ([cnt - m] + rest)[1..] == rest;
    TrimMultiple(cnt, batch);
    MulLe(m, cnt, rs);
  }

  lemma EqualizeIndex(i: nat, m: nat, b: nat, c: nat, j: nat, k: nat)
    ensures ((i + m) * b + j) * c + k == m * (b * c) + ((i * b + j) * c + k)
  {
    calc {
      ((i + m) * b + j) * c + k;
      (i * b + m * b + j) * c + k;
      (i * b + j) * c + (m * b) * c + k;
      { assert (m * b) * c == m * (b * c); }
      m * (b * c) + ((i * b + j) * c + k);
    }
  }

  /** Trimming at the start drops the first `cnt % batch` entries along the first axis. */
  lemma EqualizeStartData<T>(a: Array<T>, batch: nat)
    requires a.Valid() && |a.shape| > 0 && batch > 0
    ensures EqualizeLength(a, batch, "start").Ok?
    ensures var r, off := EqualizeLength(a, batch, "start").value, (a.shape[0] % batch) * Size(a.shape[1..]);
            forall p :: 0 <= p < |r.data| ==> off + p < |a.data| && r.data[p] == a.data[off + p]
  {
  }

  /** Trimming a three-dimensional array at the start moves entry i + cnt % batch
      to entry i. */
  lemma EqualizeStartAt<T>(a: Array<T>, batch: nat, i: nat, j: nat, k: nat)
    requires a.Valid() && |a.shape| == 3 && batch > 0
    requires i < a.shape[0] - a.shape[0] % batch && j < a.shape[1] && k < a.shape[2]
    ensures EqualizeLength(a, batch, "start").Ok?
    ensures At3(EqualizeLength(a, batch, "start").value, i, j, k) == At3(a, i + a.shape[0] % batch, j, k)
  {
    var r := EqualizeLength(a, batch, "start").value;
    var cnt, b, c := a.shape[0], a.shape[1], a.shape[2];
    var m := cnt % batch;
    assert a.shape[1..] == [b, c];
    assert Size([b, c]) == b * c by { Size3(1, b, c); assert [1, b, c][1..] == [b, c]; }
    EqualizeStartData(a, batch);
    assert r.shape == [cnt - m, b, c];
    var p := (i * b + j) * c + k;
    At3InRange(r.shape, |r.data|, i, j, k);
    assert At3(r, i, j, k) == r.data[p];
    EqualizeIndex(i, m, b, c, j, k);
    assert At3(a, i + m, j, k) == a.data[m * (b * c) + p];
  }

  /** Trimming a one-dimensional array at the start moves entry i + cnt % batch
      to entry i. */
  lemma EqualizeStartAt1<T>(a: Array<T>, batch: nat, i: nat)
    requires a.Valid() && |a.shape| == 1 && batch > 0
    requires i < a.shape[0] - a.shape[0] % batch
    ensures EqualizeLength(a, batch, "start").Ok?
    ensures |EqualizeLength(a, batch, "start").value.data| == a.shape[0] - a.shape[0] % batch
    ensures EqualizeLength(a, batch, "start").value.data[i] == a.data[i + a.shape[0] % batch]
  {
    assert a.shape[1..] == [];
    assert a.shape == [a.shape[0]];
    assert Size([a.shape[0]]) == a.shape[0] by { assert [a.shape[0]][1..] == []; }
  }

  /** `prepare_keras_data`: windows, trimmed at the start to a multiple of
      `batch`, with x shaped (k, 1, lookback * features) and y (k, 1, 1). */
  function PrepareKerasData(f: Frame, features: seq<string>, target: string, lookback: nat, batch: nat)
    : (r: Result<(Array<Cell>, Array<Cell>), PyError>)
    requires f.Valid()
    ensures (exists c :: c in features && c !in f.cols) || target !in f.cols ==> r.Err? && r.error.KeyError?
    ensures r.Ok? ==> batch > 0 && WindowCount(f.rows, lookback) > 0
    ensures r.Ok? ==> r.value.0.Valid() && r.value.1.Valid()
    ensures r.Ok? && batch > 0 ==>
              var k0 := WindowCount(f.rows, lookback);
              var k := k0 - k0 % batch;
              && k % batch == 0
              && r.value.0.shape == [k, 1, lookback * |features|]
              && r.value.1.shape == [k, 1, 1]
  {
    match PrepareFeatures(f, features, target, lookback)
    case Err(e) => Err(e)
    case Ok(p) =>
      assert p.0.Valid() && p.1.Valid();
      match EqualizeLength(p.0, batch, "start")
      case Err(e) => Err(e)
      case Ok(x) =>
        match EqualizeLength(p.1, batch, "start")
        case Err(e) => Err(e)
        case Ok(y) =>
          assert p.0.shape[1..] == [lookback, |features|] || p.0.shape == [0];
          assert p.1.shape[1..] == [];
          match ReshapeX(x)
          case Err(e) => Err(e)
          case Ok(x3) =>
            match ReshapeY(y)
            case Err(e) => Err(e)
            case Ok(y3) => Ok((x3, y3))
  }

  /** Entry (i, 0, j * F + c) of the Keras input is feature `c` of row
      i + m + j, where m = k0 % batch windows were dropped at the start. */
  lemma PrepareKerasDataWindow(f: Frame, features: seq<string>, target: string, lookback: nat, batch: nat,
                               i: nat, j: nat, c: nat)
    requires f.Valid() && (forall c :: c in features ==> c in f.cols) && target in f.cols
    requires batch > 0 && f.rows > lookback + 1
    requires i < WindowCount(f.rows, lookback) - WindowCount(f.rows, lookback) % batch
    requires j < lookback && c < |features|
    ensures PrepareKerasData(f, features, target, lookback, batch).Ok?
    ensures Offset(j, c, |features|) < lookback * |features|
    ensures At3(PrepareKerasData(f, features, target, lookback, batch).value.0, i, 0, Offset(j, c, |features|))
            == f.cols[features[c]][i + WindowCount(f.rows, lookback) % batch + j]
  {
    var p := PrepareFeatures(f, features, target, lookback).value;
    var m := WindowCount(f.rows, lookback) % batch;
    PrepareKerasDataUnfold(f, features, target, lookback, batch);
    FeatureOffset(j, c, lookback, |features|);
    TrimThenFlatten(p.0, batch, i, j, c);
    PrepareFeaturesWindow(f, features, target, lookback, i + m, j, c);
  }

  /** Position of entry `c` of row `j` in rows of width `w`, laid end to end. */
  function Offset(j: nat, c: nat, w: nat): nat
  {
    j * w + c
  }

  lemma FeatureOffset(j: nat, c: nat, n: nat, w: nat)
    requires j < n && c < w
    ensures Offset(j, c, w) < n * w
  {
    RowMajorInRange(j, c, n, w);
  }

  /** With every column present, a positive batch size and at least one
      window, `prepare_keras_data` is the composition of its four steps. */
  lemma PrepareKerasDataUnfold(f: Frame, features: seq<string>, target: string, lookback: nat, batch: nat)
    requires f.Valid() && (forall c :: c in features ==> c in f.cols) && target in f.cols
    requires batch > 0 && f.rows > lookback + 1
    ensures PrepareFeatures(f, features, target, lookback).Ok?
    ensures var p := PrepareFeatures(f, features, target, lookback).value;
            && p.0.shape == [WindowCount(f.rows, lookback), lookback, |features|]
            && p.1.shape == [WindowCount(f.rows, lookback)]
            && EqualizeLength(p.0, batch, "start").Ok?
            && EqualizeLength(p.1, batch, "start").Ok?
            && ReshapeX(EqualizeLength(p.0, batch, "start").value).Ok?
            && ReshapeY(EqualizeLength(p.1, batch, "start").value).Ok?
            && PrepareKerasData(f, features, target, lookback, batch)
               == Ok((ReshapeX(EqualizeLength(p.0, batch, "start").value).value,
                      ReshapeY(EqualizeLength(p.1, batch, "start").value).value))
  {
    PrepareKerasDataErrors(f, features, target, lookback, batch);
    var p := PrepareFeatures(f, features, target, lookback).value;
    var x := EqualizeLength(p.0, batch, "start").value;
    var y := EqualizeLength(p.1, batch, "start").value;
    assert p.0.shape[1..] == [lookback, |features|];
    assert x.shape == [x.shape[0], lookback, |features|];
    assert p.1.shape[1..] == [];
    assert y.shape == [y.shape[0]];
    assert Size(y.shape) == y.shape[0] by { assert y.shape[1..] == []; }
  }

  /** Trimming at the start and then `Reshape.x` moves entry (i + m, j, c) to
      entry (i, 0, j * C + c), where m = cnt % batch. */
  lemma TrimThenFlatten<T>(a: Array<T>, batch: nat, i: nat, j: nat, c: nat)
    requires a.Valid() && |a.shape| == 3 && batch > 0
    requires i < a.shape[0] - a.shape[0] % batch && j < a.shape[1] && c < a.shape[2]
    ensures EqualizeLength(a, batch, "start").Ok?
    ensures ReshapeX(EqualizeLength(a, batch, "start").value).Ok?
    ensures j * a.shape[2] + c < a.shape[1] * a.shape[2]
    ensures At3(ReshapeX(EqualizeLength(a, batch, "start").value).value, i, 0, j * a.shape[2] + c)
            == At3(a, i + a.shape[0] % batch, j, c)
  {
    var x := EqualizeLength(a, batch, "start").value;
    assert a.shape[1..] == [a.shape[1], a.shape[2]];
    assert x.shape == [a.shape[0] - a.shape[0] % batch, a.shape[1], a.shape[2]];
    ReshapeXOrder(x, i, j, c);
    EqualizeStartAt(a, batch, i, j, c);
  }

  /** Entry (i, 0, 0) of the Keras target is the target of row i + m + lookback. */
  lemma PrepareKerasDataTarget(f: Frame, features: seq<string>, target: string, lookback: nat, batch: nat, i: nat)
    requires f.Valid() && (forall c :: c in features ==> c in f.cols) && target in f.cols
    requires batch > 0 && f.rows > lookback + 1
    requires i < WindowCount(f.rows, lookback) - WindowCount(f.rows, lookback) % batch
    ensures PrepareKerasData(f, features, target, lookback, batch).Ok?
    ensures At3(PrepareKerasData(f, features, target, lookback, batch).value.1, i, 0, 0)
            == f.cols[target][i + WindowCount(f.rows, lookback) % batch + lookback]
  {
    var p := PrepareFeatures(f, features, target, lookback).value;
    var y := EqualizeLength(p.1, batch, "start").value;
    PrepareKerasDataUnfold(f, features, target, lookback, batch);
    EqualizeStartAt1(p.1, batch, i);
    assert (i * 1 + 0) * 1 + 0 == i;
  }

  /** With every column present, the Keras data exists exactly when the batch
      size is positive and at least one window is built; with no window the
      empty array has no second axis (IndexError), and a zero batch size is a
      ZeroDivisionError. */
  lemma PrepareKerasDataErrors(f: Frame, features: seq<string>, target: string, lookback: nat, batch: nat)
    requires f.Valid()
    requires (forall c :: c in features ==> c in f.cols) && target in f.cols
    ensures batch == 0 ==> PrepareKerasData(f, features, target, lookback, batch) == Err(ZeroDivisionError)
    ensures batch > 0 && f.rows <= lookback + 1 ==>
              PrepareKerasData(f, features, target, lookback, batch) == Err(IndexError)
    ensures batch > 0 && f.rows > lookback + 1 ==> PrepareKerasData(f, features, target, lookback, batch).Ok?
  {
    var p := PrepareFeatures(f, features, target, lookback).value;
    if batch > 0 {
      var x := EqualizeLength(p.0, batch, "start").value;
      var y := EqualizeLength(p.1, batch, "start").value;
      if f.rows > lookback + 1 {
        assert p.0.shape[1..] == [lookback, |features|];
        assert x.shape == [x.shape[0], lookback, |features|];
        assert p.1.shape[1..] == [];
        assert y.shape == [y.shape[0]];
        assert Size(y.shape) == y.shape[0] by { assert y.shape[1..] == []; }
      } else {
        assert p.0.shape[1..] == [];
        assert x.shape == [x.shape[0]];
      }
    }
  }
}

=== FILE: wrappers.dfy ===
/** Failure-compatible wrappers shared by every module of the model, and the
    Python exceptions that the modelled code can raise. */
module Wrappers {

  /** A value that may be missing; in a data frame `None` stands for NaN. */
  datatype Option<+T> = None | Some(value: T)

  /** Either a computed value or the exception the source would raise. */
  datatype Result<+T, +E> = Ok(value: T) | Err(error: E) {

    predicate IsFailure() {
      Err?
    }

    function PropagateFailure<U>(): Result<U, E>
      requires Err?
    {
      Err(error)
    }

    function Extract(): T
      requires Ok?
    {
      value
    }
  }

  /** The Python exceptions the preprocessing and windowing code raises. */
  datatype PyError =
    | KeyError(key: string)   // a data frame column that does not exist
    | IndexError              // a sequence or shape index out of range
    | ValueError              // a reshape to a different size, or a scaler fit on no columns
    | ZeroDivisionError       // integer division or modulo by zero
}
